=== FILE: README.md ===
# EdinburghRain radar rainfall processing: a Dafny model

This project models the per-cell arithmetic of the EdinburghRain radar
pipeline: `process_radar_data.py` (monthly summaries of hourly radar rain) and
`comp_daily_max.py` (daily and annual maxima). Every array operation in those
scripts works on one grid cell at a time. The model therefore works on one
cell's series.

- A series is a strictly increasing list of times and a list of readings.
  Times are whole minutes since 1970-01-01 00:00. A reading is `Option<real>`,
  and `None` stands for NaN.
- Readings are mathematical reals, not IEEE floats.
- A grid is the same computation applied pointwise.

Modules, one per file:

- `Series` (series.dfy): the series type and xarray's NaN-skipping
  reductions (sum, count, mean, max). It also has numpy's `argmax`, where the
  first NaN wins and otherwise the first maximum, plus `fillna(0)` and the
  earliest and latest time.
- `Calendar` (calendar.dfy): minute of the hour and the Gregorian month of
  a time. The month found by counting whole 400-year cycles, years and months
  is proved to be the month of the proleptic Gregorian date the time falls on.
- `Resample` (resample.dfy): the 400 mm/hr QC filter. It also has left-labelled
  resampling into clock hours or days, the hourly mean, and a day file's
  hourly rain.
- `PeriodMax` (period_max.dfy): `maxValue` and `time_of_max`. Each is split
  into a blind index choice and an all-missing mask.
- `PeriodProcess` (period_process.dfy): `process`, `time_process` and
  `end_period_process`.
- `Rolling` (rolling.dfy): `two_hr_mean`, `combine_first` with the previous
  day's last hour, and the day-seam test.
- `Monthly` (monthly.dfy): the main loop of `process_radar_data.py`, as the
  class `MonthlyAccumulator`. It holds the two daily buffers, the remembered
  last hour and its month, and the monthly files written so far.
  `RunMonthly` takes, as a ghost parameter, each day as the loop sees it
  (`View`), so that its contract can say which days the buffers end with.
- `DailyMax` (daily_max.dfy): the per-day expressions of `comp_daily_max.py`
  and `annual_process`. It also has the file loop, as the class `DailyMaxRun`.

In the following behaviours the code does something other than what a
reader of its comments and output names would expect. The model follows the
code in each:

- **Mixed periods.** One would expect a period's MaxTime to be the time of
  its largest present reading. `time_of_max` uses numpy's argmax with
  `skipna=False`, which lands on the first missing reading, and the mask only
  fires when every reading is missing. So a period that mixes missing and
  present readings reports the time of its first missing reading, even when
  it has only one present reading (`PeriodProcess.DayStatFirstMissing`,
  `PeriodMax.LonePresentReading`).
- **Monthly MaxTime.** One would expect the time at which the monthly Max
  occurred. The code takes the dailyMaxTime of the day at
  `fillna(0).argmax`. That day holds the monthly Max whenever the Max is
  positive or no daily Max is missing. Otherwise it may be a day whose Max is
  missing: daily Maxes `[None, Some(0.0)]` give the first day's time.
- **No final flush.** One would expect every month to be written, the last
  one included. No `finalize` step exists, so the last month's buffers are
  never written (`Monthly.RunMonthly`).
- **dailyTotal skips missing hours.** The period total is meant as a
  daily-equivalent depth. The code's daily total is the NaN-skipping sum of
  the hourly values: a missing hour counts as nothing and the sum is not
  rescaled for it (`PeriodProcess.ProcessTotalConserved`).
- **Seam test ignores whole days.** The seam should accept only a previous
  hour exactly one hour before the day's first. The test `(time -
  last.time).seconds == 3600` looks only at the seconds part of the
  difference, so a gap of one day and one hour passes as well as a gap of one
  hour (`Rolling.SeamOkDays`).
- **QC can blank a whole day in comp_daily_max.py.** One would expect QC to
  drop only the bad samples. The daily max there uses `skipna=False`, so a
  clock hour whose every sample fails QC makes the day's max missing. It is
  not replaced by the next-highest hour.

## Model

| member | source | states |
|---|---|---|
| Series.SumPresentAppend | process_radar_data.py:64 | the NaN-skipping sum of a concatenation is the sum of the sums (proved by induction) |
| Series.CountPresentRange | comp_daily_max.py:110 | the count of present readings lies between 0 and the length; it is 0 exactly when all are missing and the full length exactly when none is (by induction) |
| Series.SumPresentAtMost | process_radar_data.py:64 | when every present reading is at most c, the sum is at most c counted once per present reading (by induction) |
| Series.CountScaledIsProduct | comp_daily_max.py:110 | c counted once per present reading is c times the count (by induction) |
| Series.PlainMean | comp_daily_max.py:116 | the mean of n values times n is their total |
| Series.MeanPresent | comp_daily_max.py:110 | the NaN-skipping mean is missing exactly when all readings are missing; otherwise, times the number of present readings, it gives their sum |
| Series.MeanPresentAtMost | comp_daily_max.py:110 | a bound on every present reading bounds the NaN-skipping mean |
| Series.MeanPresentComplete | comp_daily_max.py:116 | with nothing missing, the NaN-skipping mean is the sum over the length |
| Series.MaxPresent | process_radar_data.py:62 | the NaN-skipping max is missing exactly when all readings are missing; otherwise it is one of the readings and no reading exceeds it |
| Series.ArgmaxNaN | process_radar_data.py:42 | numpy's argmax returns an in-range index; if any reading is missing, it is the first missing one; otherwise it is the first index holding the largest value |
| Series.ArgmaxFindsMax | process_radar_data.py:42 | with nothing missing, the reading at numpy's argmax is the NaN-skipping max |
| Series.FillZero | process_radar_data.py:82 | `fillna(0.0)` leaves nothing missing and keeps every present reading |
| Series.FilledArgmax | process_radar_data.py:82 | the chosen index holds the first largest reading once missing readings count as 0 |
| Series.FilledArgmaxFindsMax | process_radar_data.py:82-83 | the filled argmax is index 0 when all readings are missing; it lands on the true max when that max is positive or nothing is missing |
| Series.Latest | process_radar_data.py:84 | the latest time is one of the times and no time is later |
| Series.Earliest | comp_daily_max.py:34 | the earliest time is one of the times and no time is earlier |
| Calendar.MinuteOfHour | comp_daily_max.py:112 | the minute of the hour is between 0 and 59, and the time less its minute is on the hour |
| Calendar.LeapsStep | process_radar_data.py:200 | the leap-year count grows by one exactly across a Gregorian leap year (divisible by 4, and by 400 when by 100) |
| Calendar.YearStartCycle | process_radar_data.py:200 | every 400 Gregorian years from 1970 span 146097 days, in both directions |
| Calendar.MonthsInYear | process_radar_data.py:200 | the twelve month lengths add up to 366 days in a leap year and 365 otherwise |
| Calendar.YearDay | process_radar_data.py:200 | the year reached by counting whole years from a start year is no earlier than it, and the day left over lies within that year |
| Calendar.YearDayValue | process_radar_data.py:200 | the day d days on from 1 January of year y is day r.1 of year r.0: both are the same number of days since 1970-01-01 |
| Calendar.MonthFrom | process_radar_data.py:200 | counting whole months from month m ends in a month from m to 12, and in m itself when the day lies within m |
| Calendar.MonthFromValue | process_radar_data.py:200 | the month counting lands in starts no later than the day and, for a day inside the year, ends after it |
| Calendar.MonthOf | process_radar_data.py:200 | the month of a time is between 1 and 12 |
| Calendar.SameYear | process_radar_data.py:200 | a day number is one day of one year only |
| Calendar.SameMonth | process_radar_data.py:200 | a day of the year lies in one month only |
| Calendar.YearOfDay | process_radar_data.py:200 | setting aside whole 400-year cycles and then whole years gives the year and day-of-year that day number d falls on |
| Calendar.MonthOfYearDay | process_radar_data.py:200 | counting months from January, a day of the year lands in the month whose days hold it |
| Calendar.MonthOfDay | process_radar_data.py:200 | every time falls on day doy of some year y, and MonthOf gives the month of that year whose days hold doy |
| Calendar.MonthOfDate | process_radar_data.py:200 | `time.dt.month`: any time on day dd of month mo of year y (proleptic Gregorian, any year) has month mo |
| Calendar.MonthsOf1970 | process_radar_data.py:200 | in 1970, days 0-30 are January, days 31-58 February and days 59-89 March |
| Resample.Qc | comp_daily_max.py:102 | a reading is kept exactly when it is present and at most 400, and a kept reading is unchanged |
| Resample.QcSeries | comp_daily_max.py:102 | QC keeps the times and maps each reading through the `<= 400` filter |
| Resample.QcProperties | comp_daily_max.py:102 | QC keeps a reading exactly when it is present and at most 400 (400 itself is kept); kept readings are unchanged; nothing above 400 survives; QC is idempotent |
| Resample.CountUpTo | process_radar_data.py:60 | the number of leading samples whose period key is at most k splits the series at that key |
| Resample.Period | process_radar_data.py:60 | a resampling group is well formed and all its samples carry the group's key |
| Resample.CountUpToMonotone | process_radar_data.py:60 | a later period key has at least as many samples up to it |
| Resample.PeriodSlice | process_radar_data.py:60 | a group is exactly the slice of samples between the counts for key-1 and key |
| Resample.PeriodAllMissing | process_radar_data.py:62 | a group is all missing exactly when no sample with its key is present |
| Resample.PeriodMaxPresent | process_radar_data.py:62 | a group's NaN-skipping max is a present sample of that key, and bounds every present sample of that key |
| Resample.PeriodTimes | process_radar_data.py:66 | every time in a group is the time of a sample with its key |
| Resample.PeriodAtMost | process_radar_data.py:60 | a bound on the series bounds each group |
| Resample.Hourly | comp_daily_max.py:110 | the hourly resample of a non-empty series is a non-empty, well-formed series |
| Resample.HourlyLabels | comp_daily_max.py:110-114 | the first label starts the first sample's hour; every label is on the hour (minute 0); labels are an hour apart; every sample's hour is labelled |
| Resample.HourlyMean | comp_daily_max.py:110 | each hourly value is the NaN-skipping mean of that hour's samples |
| Resample.HourlyMissing | comp_daily_max.py:110 | an hourly value is missing exactly when no sample in that hour is present |
| Resample.HourlyAtMost | comp_daily_max.py:102-110 | a bound on every sample bounds every hourly value |
| Resample.DayRain | process_radar_data.py:193-194 | a day file's QC'd hourly rain is a non-empty, well-formed series |
| Resample.DayRainWithinQc | comp_daily_max.py:102-110 | no hourly value of a day's rain exceeds 400 |
| PeriodMax.MaxValueAt | process_radar_data.py:27-31 | whatever index was chosen: missing where all of `da` is missing, otherwise `da` at that index |
| PeriodMax.MaxValue | process_radar_data.py:18-31 | `maxValue` is masked when all of `da` is missing; otherwise it is `da` at the first missing `maxVar` entry if any, else at the first maximum of `maxVar` |
| PeriodMax.TimeOfMaxAt | process_radar_data.py:40-46 | whatever index was chosen: missing exactly when all readings are missing, otherwise the time at that index |
| PeriodMax.TimeOfMax | process_radar_data.py:34-46 | `time_of_max` is missing exactly when all readings are missing; otherwise it is one of the period's times: that of the first maximum when nothing is missing, or of the first missing reading when some are missing |
| PeriodMax.TimeOfMaxRunFirstMax | process_radar_data.py:40-46 | over a run of a longer series with nothing missing, `time_of_max` is the time of the run's first largest reading |
| PeriodMax.TimeOfMaxRunFirstMissing | process_radar_data.py:40-46 | over a run with a missing and a present reading, `time_of_max` is the time of the run's first missing reading |
| PeriodMax.LonePresentReading | process_radar_data.py:40-45 | with a single present reading, the max is that reading, and its time is reported only when it is the period's only sample; otherwise the first missing reading's time is reported |
| PeriodProcess.Stat | process_radar_data.py:60-66 | a group's entry carries the group's start; its Total is missing exactly when the group has no samples, and otherwise is the NaN-skipping sum of its readings (0 when all are missing); its Max and its MaxTime are each missing exactly when every reading of the group is missing; a present MaxTime is one of the group's times |
| PeriodProcess.DayStat | process_radar_data.py:60-66 | the entry of a day is labelled with the day's start |
| PeriodProcess.Process | process_radar_data.py:49-69 | `process` yields at least one daily entry |
| PeriodProcess.ProcessDays | process_radar_data.py:60-67 | one entry per day from the first sample's day to the last sample's day, in order, each labelled with its start |
| PeriodProcess.ProcessDay | process_radar_data.py:60-67 | entry p is the day p days after the first sample's day |
| PeriodProcess.DayStatMax | process_radar_data.py:62 | a day's Max is missing exactly when no sample of that day is present; otherwise it is one of that day's present samples and bounds all of them |
| PeriodProcess.DayStatMaxTime | process_radar_data.py:66 | a day's MaxTime is missing exactly when all that day's samples are missing; otherwise it is the time of one of that day's samples; it is `time_of_max` of that day's samples, missing for a day without samples |
| PeriodProcess.DayRun | process_radar_data.py:60 | a day's samples are exactly those from the count before the day to the count up to it |
| PeriodProcess.DayStatFirstMax | process_radar_data.py:66 | for a day with no missing sample, MaxTime is the time of the first of that day's samples holding the day's Max |
| PeriodProcess.DayStatFirstMissing | process_radar_data.py:66 | for a day with a missing and a present sample, MaxTime is the time of that day's first missing sample |
| PeriodProcess.PrefixSums | process_radar_data.py:64 | entries whose Totals (missing read as 0) sum consecutive slices of a series, starting at its first sample, add up over the first m to the sum of the first m slices (by induction) |
| PeriodProcess.DayCutsMonotone | process_radar_data.py:60 | day boundaries start at sample 0 and never decrease |
| PeriodProcess.DayCutTotal | process_radar_data.py:64 | a day's Total, read as 0 when missing, is the NaN-skipping sum of the samples between its boundaries |
| PeriodProcess.DayCutsTotals | process_radar_data.py:64 | every day's Total, read as 0 when missing, is the sum of the samples between its boundaries |
| PeriodProcess.PrefixTotals | process_radar_data.py:64 | the present Totals of the first m days add up to the sum of those days' samples |
| PeriodProcess.ProcessTotalConserved | process_radar_data.py:63-64 | the present daily Totals add up to the NaN-skipping sum of the whole series: every present sample is counted exactly once |
| PeriodProcess.ProcessAtMost | process_radar_data.py:62 | a bound on every sample bounds every daily Max |
| PeriodProcess.Maxes | process_radar_data.py:81 | the dailyMax column holds each entry's Max |
| PeriodProcess.Times | process_radar_data.py:84 | the time column holds each entry's time |
| PeriodProcess.TimeProcess | process_radar_data.py:72-92 | the `max_time` attribute is no earlier than any day; when every daily Max is missing, MaxTime is the first day's |
| PeriodProcess.TimeProcessMean | process_radar_data.py:85 | Mean is the NaN-skipping mean of the daily Totals: missing exactly when every day's Total is missing; with no Total missing it is their plain mean |
| PeriodProcess.TimeProcessMax | process_radar_data.py:81 | Max is missing exactly when every daily Max is missing; otherwise it is one of the daily Maxes and no daily Max exceeds it |
| PeriodProcess.TimeProcessMaxTime | process_radar_data.py:82-83 | MaxTime is the dailyMaxTime of the first day largest once missing Maxes count as 0; it is from a day holding Max when Max is positive or no day is missing; it is the first day's when every Max is missing |
| PeriodProcess.TimeProcessLatest | process_radar_data.py:84-90 | the `max_time` attribute is one of the days' times and no day is later; with days in order it is the last day |
| PeriodProcess.TimeProcessMaxMembers | process_radar_data.py:81 | Max is missing exactly when every entry's Max is; otherwise it is some entry's Max and no entry's Max exceeds it (stated over the entries themselves) |
| PeriodProcess.Concat | process_radar_data.py:135 | the concatenation holds as many entries as the datasets together, so at least one per dataset when none is empty |
| PeriodProcess.ConcatContents | process_radar_data.py:135 | every entry of every buffered dataset is in the concatenation, and every entry of the concatenation comes from a buffered dataset (by induction) |
| PeriodProcess.ConcatAppend | process_radar_data.py:135 | buffering one more dataset appends its entries after all the others (by induction) |
| PeriodProcess.EndPeriodProcess | process_radar_data.py:120-139 | an empty buffer gives `[]`; a non-empty buffer gives one file that covers every buffered day and whose data is the concatenated buffer (the file's summary, `PeriodFile.Summarised`, is `time_process` of that data) |
| PeriodProcess.EndPeriodProcessMax | process_radar_data.py:120-139 | the flushed Max is missing exactly when every buffered entry's Max is, and no buffered entry's Max exceeds it |
| PeriodProcess.EndPeriodProcessMaxFrom | process_radar_data.py:120-139 | a present flushed Max is the Max of some buffered entry |
| Rolling.PairMean | process_radar_data.py:145 | a full two-sample window's mean is present only when both samples are |
| Rolling.TwoHrMean | process_radar_data.py:141-145 | the rolling mean has the input's length; output 0 is missing; output i is (x[i-1]+x[i])/2 when both are present, and is missing otherwise |
| Rolling.TwoHrMeanAtMost | process_radar_data.py:141-145 | a bound on the inputs bounds the rolling mean |
| Rolling.TwoHrMeanCons | process_radar_data.py:213 | prepending a sample changes only the first window: output 1 pairs the new sample with the old first one |
| Rolling.Below | process_radar_data.py:213 | counts the leading times before t, splitting the axis at t |
| Rolling.CombineFirst | process_radar_data.py:213 | merging one sample into a series gives a well-formed series, one longer unless the time is already present |
| Rolling.CombineFirstTimes | process_radar_data.py:213 | the merged axis holds exactly the times of both inputs |
| Rolling.CombineFirstValues | process_radar_data.py:213 | at every time other than last's, the merge holds the series' own value at that time |
| Rolling.CombineFirstAtLast | process_radar_data.py:213 | at last's time the merge holds last's value when present; otherwise the series' own value at that time, or missing when the series has no sample then |
| Rolling.CombineFirstAtMost | process_radar_data.py:213 | a bound on the series and on last's value bounds every value of the merge |
| Rolling.CombineFirstBefore | process_radar_data.py:213 | when `last` is earlier than the day, the merge puts it in front |
| Rolling.SeamOk | process_radar_data.py:212 | a gap of one hour passes the seam test, and so does one day and one hour; two hours fail |
| Rolling.SeamOkDays | process_radar_data.py:212 | the seam test passes exactly when the gap is one hour plus a whole number of days: +1h and +1d1h pass, +2h fails |
| Rolling.TwoHrSeries | process_radar_data.py:212-216 | the 2-hour series handed to `process` is well formed and non-empty |
| Rolling.TwoHrSeam | process_radar_data.py:212-213 | across a seam the output keeps the day's times; its first value is the mean of the previous and first hours; the rest is the day's own rolling mean |
| Rolling.TwoHrNoSeam | process_radar_data.py:214-216 | without a seam the output is the day's rolling mean, missing at the first hour |
| Rolling.TwoHrSeriesAtMost | process_radar_data.py:212-218 | bounds on the day and on the previous hour bound every 2-hour value |
| Monthly.DailyMaxesWithinQc | process_radar_data.py:193-218 | every buffered daily Max, direct or 2-hour, is at most 400 |
| Monthly.LastHour | process_radar_data.py:220 | the remembered hour is the day's last, with that hour's value, no earlier than any other hour of the day |
| Monthly.MonthlyAccumulator.constructor | process_radar_data.py:179-183 | starts with empty buffers and no remembered hour or month |
| Monthly.MonthlyAccumulator.Flush | process_radar_data.py:203-207 | writes one summary per buffer, covering every buffered day; empties both buffers; keeps the remembered hour |
| Monthly.MonthlyAccumulator.Buffer | process_radar_data.py:210-221 | appends the day's entries to both buffers, remembers the hour and its month, and restores the accumulator invariant |
| Monthly.MonthlyAccumulator.Push | process_radar_data.py:196-221 | flushes exactly when a month is remembered and the day's first hour is in another month; the buffers are then the day alone, otherwise they are extended by it; each day is accounted for once |
| Monthly.View | process_radar_data.py:193-221 | one day as the loop sees it: the months of its first and last hours, each 1 to 12, and its non-empty direct and 2-hour buffer entries, the latter seamed to the previous day's last hour |
| Monthly.SinceChangeStep | process_radar_data.py:199-207 | a month change at day n makes day n open the current month; otherwise day n joins the month opened earlier |
| Monthly.BufferedStep | process_radar_data.py:205-218 | after a flush the buffers hold day n's entries alone; otherwise day n's entries extend the buffered days of the current month |
| Monthly.PushDay | process_radar_data.py:189-221 | one pass of the loop keeps every day accounted for, remembers the day's last hour, and leaves the buffers holding exactly the days since the last month change |
| Monthly.RunMonthly | process_radar_data.py:179-223 | written days plus buffered days equal the days read; a non-empty run ends remembering the last day's last hour, with both buffers holding exactly the entries of the days from some day j on, where day j opens a month (or the run) and no later day opens another: the last month is never flushed |
| Monthly.AppendFile | process_radar_data.py:203-204 | writing one file adds its day count to the days written |
| DailyMax.DailyMeanRain | comp_daily_max.py:116 | the daily mean is missing exactly when some hour is missing |
| DailyMax.DailyMaxRain | comp_daily_max.py:118 | the daily max is missing exactly when some hour is missing; otherwise it is one of the hours and bounds all of them |
| DailyMax.DailyMaxTime | comp_daily_max.py:119 | the unmasked `idxmax` always returns one of the day's times |
| DailyMax.DailyMeanIsScaledMean | comp_daily_max.py:116-118 | mean and max are missing together; with every hour present the daily mean is 24 times the NaN-skipping mean |
| DailyMax.DailyMeanFullDay | comp_daily_max.py:116 | with all 24 hours present the daily mean equals the day's total |
| DailyMax.DailyMaxTimeChoice | comp_daily_max.py:119 | with no hour missing, the time of the first maximum; otherwise the time of the first missing hour |
| DailyMax.DaySummary | comp_daily_max.py:102-121 | a day's record is stamped with the file's first sample time |
| DailyMax.DaySummaryProperties | comp_daily_max.py:110-119 | the day's time of max is one of its hourly labels, on the hour; the day's max is at most 400 |
| DailyMax.DayMaxes | comp_daily_max.py:36 | the dailyMaxRain column holds each day's max |
| DailyMax.DayTimes | comp_daily_max.py:34-35 | the time column holds each day's time |
| DailyMax.AnnualProcess | comp_daily_max.py:33-46 | the record's time is no later than its `max_time` attribute |
| DailyMax.AnnualMax | comp_daily_max.py:36 | maxV is missing exactly when every daily max is missing; otherwise it is one of them and none exceeds it |
| DailyMax.AnnualMaxTime | comp_daily_max.py:37-40 | maxVTime is the dailyMaxTime of the first day whose max is largest once missing maxes count as 0 |
| DailyMax.AnnualMaxTimeHoldsMax | comp_daily_max.py:36-40 | the day maxVTime comes from holds maxV itself when maxV is positive or no day is missing |
| DailyMax.AnnualMaxTimeAllMissing | comp_daily_max.py:37-40 | when every day is missing, maxVTime is the first day's time of max |
| DailyMax.AnnualTimes | comp_daily_max.py:34-46 | the record's time is the earliest day's and `max_time` the latest day's, bracketing every day |
| DailyMax.Records | comp_daily_max.py:123 | one daily record per file |
| DailyMax.RecordsAt | comp_daily_max.py:123 | record i is the summary of file i (by induction) |
| DailyMax.Counts | comp_daily_max.py:109 | entry i is the sample count of file i |
| DailyMax.Starts | comp_daily_max.py:108 | entry i is the first sample time of file i |
| DailyMax.AnnualWithinQc | comp_daily_max.py:102-131 | a year's maxV never exceeds 400 |
| DailyMax.YearStep | comp_daily_max.py:103-123 | one more file extends the records, the counts and the start times by that file's entries, after what came before |
| DailyMax.DailyMaxRun.constructor | comp_daily_max.py:77-78 | both count lists start empty |
| DailyMax.DailyMaxRun.StartYear | comp_daily_max.py:95 | the year's records are emptied; the counts are kept |
| DailyMax.DailyMaxRun.AddFile | comp_daily_max.py:103-123 | each file appends exactly one start time, one sample count (its own) and one day record |
| DailyMax.DailyMaxRun.RunYear | comp_daily_max.py:93-131 | the year's records are the files' summaries in order; the annual record is `annual_process` of them; each file adds one count and one start time |

## Left out

- File discovery, globbing, the expected-file-count checks, argparse, directory creation, test mode and all printing. These are filesystem and command-line I/O.
- NetCDF reading and writing (`write_data`, every `to_netcdf`, compression encoding) and `commonLib.time_convert`. These are foreign library calls.
- Radar archive decoding (`extract_nimrod_day`). Its output is the input series. `commonLib` is not part of this model, so its internal QC (`QCmax=400`) is taken to be the same filter as comp_daily_max.py:102.
- Spatial region slicing and the grid itself. Every operation is per cell, so one cell is modelled.
- IEEE floating point. Readings are mathematical reals with `None` for NaN.
- The `total=False` path of `process`. It references an unbound variable.
- The file-naming inputs of `end_period_process`, which reads the loop's global `f`.
- The `two_hr_notes` attribute, the `dailyMaxHr` output and the units attributes. These are metadata only.
- PeriodProcess.EndPeriodProcess: summarises the whole buffer as one period. The source's monthly resample would split a buffer spanning several calendar months into one summary per month. That happens in two ways. Days with the same month number in different years can arrive back to back. Or the seam test (process_radar_data.py:212, which reads only the `seconds` part of the gap) can accept a remembered hour that lies after the day, for instance when the years of a run are given out of order; the day's 2-hour series then stretches to that later hour, possibly in another month, with empty days in between. The summary's own month label is not modelled either.
- PeriodProcess.TimeProcess: its own contract states only the `max_time` bound and the all-missing MaxTime. Its other properties are the TimeProcessMean, TimeProcessMax, TimeProcessMaxTime and TimeProcessLatest lemmas.
- PeriodProcess.TimeProcessMean: states Mean as `MeanPresent` of the daily Totals. The product form (Mean × present days = sum of present Totals) is proved once, on MeanPresent.
- Resample.Hourly: carries only a shape contract. Its content is proved in HourlyLabels, HourlyMean and HourlyMissing.
- PeriodProcess.Process: carries only a shape contract. Its content is proved in ProcessDays, ProcessDay, DayStatMax, DayStatMaxTime, DayStatFirstMax and DayStatFirstMissing.
- DailyMax.AnnualProcess: its own contract states only the order of its two times. Its other properties are AnnualMax, AnnualMaxTime, AnnualMaxTimeHoldsMax, AnnualMaxTimeAllMissing and AnnualTimes.
- DailyMax.DailyMaxRun.RunYear: requires at least one file. On an empty year `combine_nested` returns an empty dataset, and `annual_process` then fails at `DS_daily.time.min()` (comp_daily_max.py:34, called at line 131).
- Calendar.MonthOf: its own contract states only that the month is 1 to 12. Agreement with the proleptic Gregorian month is proved in MonthOfDay and MonthOfDate.
- Calendar.YearDay: its own contract gives only bounds. Its value is stated in YearDayValue.
- Calendar.MonthFrom: its own contract gives only bounds and the first-month case. Its value is stated in MonthFromValue.
- The month `last_month` of comp_daily_max.py (lines 96 and 104-106). It only decides when a progress line is printed.
- Years whose data directory is missing. The source skips them, and the model's input lists hold only the years that exist.

=== FILE: calendar.dfy ===
/** Times are whole minutes since 1970-01-01 00:00 (UTC, proleptic Gregorian
    calendar). This module gives the clock-hour and calendar-day keys that the
    resampler groups by, and the calendar month that the monthly driver
    compares. */
module Calendar {

  const MinutesPerHour: int := 60
  const MinutesPerDay: int := 1440

  /** Multiplying by a non-negative factor keeps an order. */
  lemma MulMonotone(w: int, x: int, y: int)
    requires w >= 0 && x <= y
    ensures w * x <= w * y
  {
    assert w * y - w * x == w * (y - x);
  }

  /** Floor division is monotone: a later time never has a smaller period key. */
  lemma DivMonotone(a: int, b: int, w: int)
    requires w > 0 && a <= b
    ensures a / w <= b / w
  {
    var qa, qb := a / w, b / w;
    assert a == w * qa + a % w && b == w * qb + b % w;
    if qb < qa {
      MulMonotone(w, qb + 1, qa);
      assert false;
    }
  }

  /** Minute within the hour (`time.dt.minute`): the time less its minute
      is on the hour. */
  function MinuteOfHour(t: int): (m: int)
    ensures 0 <= m < MinutesPerHour
    ensures (t - m) % MinutesPerHour == 0
  {
    t % MinutesPerHour
  }

  /** The Gregorian calendar repeats every 400 years, which hold 146097 days. */
  const DaysPer400Years: int := 146097

  predicate IsLeap(y: int) {
    (y % 4 == 0 && y % 100 != 0) || y % 400 == 0
  }

  function YearLength(y: int): int {
    if IsLeap(y) then 366 else 365
  }

  function MonthLength(m: int, leap: bool): int
    requires 1 <= m <= 12
  {
    if m == 2 then (if leap then 29 else 28)
    else if m == 4 || m == 6 || m == 9 || m == 11 then 30
    else 31
  }

  /** Leap years before year y, counted from a fixed origin: the difference
      between two years' counts is the number of leap years between them. */
  function LeapsBefore(y: int): int {
    (y + 3) / 4 - (y + 99) / 100 + (y + 399) / 400
  }

  /** Moving on one year moves each of the three counts in LeapsBefore on
      by one exactly when the year is a multiple of its divisor. */
  lemma FoursStep(y: int)
    ensures (y + 4) / 4 == (y + 3) / 4 + (if y % 4 == 0 then 1 else 0)
  {
  }

  lemma CenturiesStep(y: int)
    ensures (y + 100) / 100 == (y + 99) / 100 + (if y % 100 == 0 then 1 else 0)
  {
  }

  lemma QuadricentenniaStep(y: int)
    ensures (y + 400) / 400 == (y + 399) / 400 + (if y % 400 == 0 then 1 else 0)
  {
  }

  /** A multiple of 400 is a multiple of 100. */
  lemma Multiple400Is100(y: int)
    requires y % 400 == 0
    ensures y % 100 == 0
  {
    assert y == 100 * (4 * (y / 400));
  }

  /** A multiple of 100 is a multiple of 4. */
  lemma Multiple100Is4(y: int)
    requires y % 100 == 0
    ensures y % 4 == 0
  {
    assert y == 4 * (25 * (y / 100));
  }

  /** Each year adds one to the count exactly when it is a leap year. */
  lemma LeapsStep(y: int)
    ensures LeapsBefore(y + 1) == LeapsBefore(y) + (if IsLeap(y) then 1 else 0)
  {
    FoursStep(y);
    CenturiesStep(y);
    QuadricentenniaStep(y);
    if y % 400 == 0 {
      Multiple400Is100(y);
    }
    if y % 100 == 0 {
      Multiple100Is4(y);
    }
  }

  /** The day number (days since 1970-01-01) of 1 January of year y: the
      lengths of the years between 1970 and y, counted forward or back. */
  function YearStart(y: int): int
    decreases if y < 1970 then 1970 - y else y - 1970
  {
    if y == 1970 then 0
    else if y > 1970 then YearStart(y - 1) + YearLength(y - 1)
    else YearStart(y + 1) - YearLength(y)
  }

  /** A year starts where the one before it ends. */
  lemma YearStartStep(y: int)
    ensures YearStart(y + 1) == YearStart(y) + YearLength(y)
  {
  }

  /** The start of year y in closed form: 365 days a year plus one for each
      leap year since 1970. */
  lemma {:induction false} YearStartLeaps(y: int)
    ensures YearStart(y) == 365 * (y - 1970) + LeapsBefore(y) - LeapsBefore(1970)
    decreases if y < 1970 then 1970 - y else y - 1970
  {
    if y > 1970 {
      YearStartLeaps(y - 1);
      LeapsStep(y - 1);
    } else if y < 1970 {
      YearStartLeaps(y + 1);
      LeapsStep(y);
    }
  }

  /** A later year never starts earlier. */
  lemma {:induction false} YearStartMonotone(a: int, b: int)
    requires a <= b
    ensures YearStart(a) <= YearStart(b)
    decreases b - a
  {
    if a < b {
      YearStartStep(a);
      YearStartMonotone(a + 1, b);
    }
  }

  /** Every 400 years from 1970 start exactly 146097 days apart. */
  lemma YearStartCycle(q: int)
    ensures YearStart(1970 + 400 * q) == DaysPer400Years * q
  {
    YearStartLeaps(1970 + 400 * q);
    assert (1973 + 400 * q) / 4 == 493 + 100 * q;
    assert (2069 + 400 * q) / 100 == 20 + 4 * q;
    assert (2369 + 400 * q) / 400 == 5 + q;
  }

  /** Days before month m (1 to 13) of a year: the lengths of months 1 to
      m - 1 added up. */
  function MonthsBefore(m: int, leap: bool): int
    requires 1 <= m <= 13
  {
    if m == 1 then 0 else MonthsBefore(m - 1, leap) + MonthLength(m - 1, leap)
  }

  /** The twelve months fill the year. */
  lemma MonthsInYear(leap: bool)
    ensures MonthsBefore(13, leap) == if leap then 366 else 365
  {
    var l := if leap then 1 else 0;
    assert MonthsBefore(2, leap) == 31;
    assert MonthsBefore(3, leap) == 59 + l;
    assert MonthsBefore(4, leap) == 90 + l;
    assert MonthsBefore(5, leap) == 120 + l;
    assert MonthsBefore(6, leap) == 151 + l;
    assert MonthsBefore(7, leap) == 181 + l;
    assert MonthsBefore(8, leap) == 212 + l;
    assert MonthsBefore(9, leap) == 243 + l;
    assert MonthsBefore(10, leap) == 273 + l;
    assert MonthsBefore(11, leap) == 304 + l;
    assert MonthsBefore(12, leap) == 334 + l;
  }

  /** Later months start later in the year. */
  lemma {:induction false} MonthsBeforeMonotone(a: int, b: int, leap: bool)
    requires 1 <= a <= b <= 13
    ensures MonthsBefore(a, leap) <= MonthsBefore(b, leap)
    decreases b - a
  {
    if a < b {
      MonthsBeforeMonotone(a, b - 1, leap);
    }
  }

  /** The day number (days since 1970-01-01) of day dd of month mo of year y. */
  function DayNumber(y: int, mo: int, dd: int): int
    requires 1 <= mo <= 12
  {
    YearStart(y) + MonthsBefore(mo, IsLeap(y)) + dd - 1
  }

  /** The year, and the day within it counted from 0, of the day that lies
      d days after 1 January of year y (YearDayValue). */
  function YearDay(d: nat, y: int): (r: (int, nat))
    ensures y <= r.0 && r.1 < YearLength(r.0)
    decreases d
  {
    if d < YearLength(y) then (y, d) else YearDay(d - YearLength(y), y + 1)
  }

  /** The day d days on from the start of year y is day r.1 of year r.0. */
  lemma {:induction false} YearDayValue(d: nat, y: int)
    ensures var r := YearDay(d, y);
      y <= r.0 && r.1 < YearLength(r.0) && YearStart(y) + d == YearStart(r.0) + r.1
    decreases d
  {
    if d >= YearLength(y) {
      YearStartStep(y);
      YearDayValue(d - YearLength(y), y + 1);
    }
  }

  /** The month, from m on, in which day `doy` (counted from the start of
      month m) falls; December takes whatever is left (MonthFromValue). */
  function MonthFrom(doy: nat, leap: bool, m: int): (r: int)
    requires 1 <= m <= 12
    ensures m <= r <= 12
    ensures doy < MonthLength(m, leap) ==> r == m
    decreases 12 - m
  {
    if m == 12 || doy < MonthLength(m, leap) then m
    else MonthFrom(doy - MonthLength(m, leap), leap, m + 1)
  }

  /** Counting from month m, day `doy` lands in the month whose days hold
      it: that month starts no later than the day, and, when the day lies
      within the year, ends after it. */
  lemma {:induction false} MonthFromValue(doy: nat, leap: bool, m: int)
    requires 1 <= m <= 12
    ensures var r := MonthFrom(doy, leap, m);
      && MonthsBefore(r, leap) <= MonthsBefore(m, leap) + doy
      && (MonthsBefore(m, leap) + doy < (if leap then 366 else 365) ==>
            MonthsBefore(m, leap) + doy < MonthsBefore(r, leap) + MonthLength(r, leap))
    decreases 12 - m
  {
    var len := MonthLength(m, leap);
    if m == 12 || doy < len {
      assert MonthFrom(doy, leap, m) == m;
      if m == 12 {
        MonthsInYear(leap);
      }
    } else {
      var r := MonthFrom(doy - len, leap, m + 1);
      assert MonthFrom(doy, leap, m) == r;
      MonthFromValue(doy - len, leap, m + 1);
      assert MonthsBefore(m + 1, leap) + (doy - len) == MonthsBefore(m, leap) + doy;
    }
  }

  /** Calendar month, 1 to 12, of a time (`time.dt.month`): whole 400-year
      cycles from 1970 are set aside, then whole years, then whole months. */
  function MonthOf(t: int): (m: int)
    ensures 1 <= m <= 12
  {
    var d := t / MinutesPerDay;
    var yd := YearDay(d % DaysPer400Years, 1970 + 400 * (d / DaysPer400Years));
    MonthFrom(yd.1, IsLeap(yd.0), 1)
  }

  /** MonthOf's steps spelled out. */
  lemma MonthOfUnfold(t: int)
    ensures var d := t / MinutesPerDay;
      var yd := YearDay(d % DaysPer400Years, 1970 + 400 * (d / DaysPer400Years));
      MonthOf(t) == MonthFrom(yd.1, IsLeap(yd.0), 1)
  {
  }

  /** A day number falls in one year only: if it is day `doy` of year y and
      day `doy'` of year y', the years and the days agree. */
  lemma SameYear(y: int, doy: int, y': int, doy': int)
    requires 0 <= doy < YearLength(y) && 0 <= doy' < YearLength(y')
    requires YearStart(y) + doy == YearStart(y') + doy'
    ensures y == y' && doy == doy'
  {
    if y' < y {
      YearStartStep(y');
      YearStartMonotone(y' + 1, y);
    } else if y < y' {
      YearStartStep(y);
      YearStartMonotone(y + 1, y');
    }
  }

  /** A day of the year falls in one month only. */
  lemma SameMonth(m: int, m': int, leap: bool, doy: int)
    requires 1 <= m <= 12 && 1 <= m' <= 12
    requires MonthsBefore(m, leap) <= doy < MonthsBefore(m + 1, leap)
    requires MonthsBefore(m', leap) <= doy < MonthsBefore(m' + 1, leap)
    ensures m == m'
  {
    if m < m' {
      MonthsBeforeMonotone(m + 1, m', leap);
    } else if m' < m {
      MonthsBeforeMonotone(m' + 1, m, leap);
    }
  }

  /** The year and the day within it that MonthOf finds for day number d
      are the ones d falls on. */
  lemma YearOfDay(d: int)
    ensures var yd := YearDay(d % DaysPer400Years, 1970 + 400 * (d / DaysPer400Years));
      d == YearStart(yd.0) + yd.1 && yd.1 < YearLength(yd.0)
  {
    var q, r := d / DaysPer400Years, d % DaysPer400Years;
    assert d == DaysPer400Years * q + r;
    YearStartCycle(q);
    YearDayValue(r, 1970 + 400 * q);
  }

  /** Counting months from January, a day of the year lands in the month
      whose days hold it. */
  lemma MonthOfYearDay(doy: nat, leap: bool, m: int)
    requires doy < (if leap then 366 else 365) && m == MonthFrom(doy, leap, 1)
    ensures 1 <= m <= 12 && MonthsBefore(m, leap) <= doy < MonthsBefore(m + 1, leap)
  {
    MonthsInYear(leap);
    MonthFromValue(doy, leap, 1);
    assert MonthsBefore(m + 1, leap) == MonthsBefore(m, leap) + MonthLength(m, leap);
  }

  /** Every time lies on day `doy` of some year y, and its month is the one
      whose days hold `doy`. */
  lemma MonthOfDay(t: int) returns (y: int, doy: nat)
    ensures t / MinutesPerDay == YearStart(y) + doy && doy < YearLength(y)
    ensures MonthsBefore(MonthOf(t), IsLeap(y)) <= doy < MonthsBefore(MonthOf(t) + 1, IsLeap(y))
  {
    var d := t / MinutesPerDay;
    var yd := YearDay(d % DaysPer400Years, 1970 + 400 * (d / DaysPer400Years));
    MonthOfUnfold(t);
    YearOfDay(d);
    y, doy := yd.0, yd.1;
    MonthOfYearDay(doy, IsLeap(y), MonthOf(t));
  }

  /** `time.dt.month`: every time on day dd of month mo of year y (proleptic
      Gregorian) is in month mo. */
  lemma MonthOfDate(y: int, mo: int, dd: int, t: int)
    requires 1 <= mo <= 12 && 1 <= dd <= MonthLength(mo, IsLeap(y))
    requires t / MinutesPerDay == DayNumber(y, mo, dd)
    ensures MonthOf(t) == mo
  {
    var leap := IsLeap(y);
    // Day dd of month mo is day `doy` of year y.
    var doy := MonthsBefore(mo, leap) + dd - 1;
    MonthsInYear(leap);
    MonthsBeforeMonotone(1, mo, leap);
    MonthsBeforeMonotone(mo + 1, 13, leap);
    assert 0 <= doy < YearLength(y) && t / MinutesPerDay == YearStart(y) + doy;
    var y', doy' := MonthOfDay(t);
    SameYear(y, doy, y', doy');
    SameMonth(MonthOf(t), mo, leap, doy);
  }

  /** 1970 is not a leap year: its first 31 days are in January, the next
      28 in February and the 31 after them in March. */
  lemma MonthsOf1970(t: int)
    requires 0 <= t < 90 * MinutesPerDay
    ensures MonthOf(t) == if t < 31 * MinutesPerDay then 1 else if t < 59 * MinutesPerDay then 2 else 3
  {
    var d := t / MinutesPerDay;
    assert d % DaysPer400Years == d && d / DaysPer400Years == 0;
    assert YearDay(d, 1970) == (1970, d);
    assert !IsLeap(1970);
    if d >= 31 {
      assert MonthFrom(d, false, 1) == MonthFrom(d - 31, false, 2);
      if d >= 59 {
        assert MonthFrom(d - 31, false, 2) == MonthFrom(d - 59, false, 3);
      }
    }
  }
}

=== FILE: daily_max.dfy ===
/** comp_daily_max.py: each day file is quality-controlled and averaged to
    hourly rain; the day's mean (scaled to mm/day), max and time of max are
    taken with missing hours propagated; the days of a year are then reduced
    by `annual_process` to the year's max, its time and the year's span. */
module DailyMax {
  import opened Series
  import opened Calendar
  import opened Resample

  /** `rain.mean('time', skipna=False) * 24`: the mean hourly rain scaled to
      a day, missing as soon as any hour is missing. */
  function DailyMeanRain(rain: seq<Option<real>>): (r: Option<real>)
    requires |rain| > 0
    ensures r.None? <==> AnyMissing(rain)
  {
    if AnyMissing(rain) then None else Some(PlainMean(SumPresent(rain), |rain|) * 24.0)
  }

  /** `rain.max('time', skipna=False)`: missing as soon as any hour is
      missing, otherwise the largest hourly value. */
  function DailyMaxRain(rain: seq<Option<real>>): (r: Option<real>)
    requires |rain| > 0
    ensures r.None? <==> AnyMissing(rain)
    ensures r.Some? ==> r in rain && AtMost(rain, r.value)
  {
    if AnyMissing(rain) then None
    else
      assert rain[0].Some?;
      MaxPresent(rain)
  }

  /** `rain.idxmax('time', skipna=False)`: the time at numpy's argmax. With
      `skipna=False` xarray does not mask an all-missing day, so a time is
      always returned. */
  function DailyMaxTime(times: seq<int>, rain: seq<Option<real>>): (t: int)
    requires |times| == |rain| > 0
    ensures t in times
  {
    times[ArgmaxNaN(rain)]
  }

  /** Mean and max agree on when a day is missing, and with every hour
      present the daily mean is 24 times the NaN-skipping mean. */
  lemma DailyMeanIsScaledMean(rain: seq<Option<real>>)
    requires |rain| > 0
    ensures DailyMeanRain(rain).None? <==> DailyMaxRain(rain).None?
    ensures !AnyMissing(rain) ==> DailyMeanRain(rain) == Some(MeanPresent(rain).value * 24.0)
  {
    if !AnyMissing(rain) {
      assert rain[0].Some?;
      var n := |rain| as real;
      var m := PlainMean(SumPresent(rain), |rain|);
      var q := MeanPresent(rain).value;
      CountPresentRange(rain);
      MulCancel(m, q, n);
    }
  }

  /** Two numbers with the same non-zero multiple are equal. */
  lemma MulCancel(a: real, b: real, n: real)
    requires n != 0.0 && a * n == b * n
    ensures a == b
  {
  }

  /** A complete day of 24 hourly values has a daily mean equal to its total. */
  lemma DailyMeanFullDay(rain: seq<Option<real>>)
    requires |rain| == 24 && !AnyMissing(rain)
    ensures DailyMeanRain(rain) == Some(SumPresent(rain))
  {
    var m := PlainMean(SumPresent(rain), |rain|);
    assert m * 24.0 == SumPresent(rain);
  }

  /** The day's time of max: with every hour present, the time of the first
      largest value; otherwise the time of the first missing hour. */
  lemma DailyMaxTimeChoice(times: seq<int>, rain: seq<Option<real>>)
    requires |times| == |rain| > 0
    ensures !AnyMissing(rain) ==>
      exists k :: 0 <= k < |rain| && DailyMaxTime(times, rain) == times[k] && rain[k] == MaxPresent(rain) &&
        forall j :: 0 <= j < k ==> rain[j].value < rain[k].value
    ensures AnyMissing(rain) ==>
      exists k :: 0 <= k < |rain| && DailyMaxTime(times, rain) == times[k] && rain[k].None? &&
        forall j :: 0 <= j < k ==> rain[j].Some?
  {
    var k := ArgmaxNaN(rain);
    ArgmaxFindsMax(rain);
    assert DailyMaxTime(times, rain) == times[k];
  }

  /** One day's statistics: the time of the day file's first sample, the
      daily mean, the daily max and the time of that max. The record that
      joins the year's list holds only the max and its time; the mean
      (`dailyMeanRain`) goes to its own per-day file, so `annual_process`
      never reads it. It is kept here so that its contract can be stated. */
  datatype DayRecord = DayRecord(time: int, meanRain: Option<real>, maxRain: Option<real>, maxTime: int)

  /** The loop body's per-day expressions (comp_daily_max.py lines 102-119)
      for one day file. */
  function DaySummary(raw: Series): (d: DayRecord)
    requires WellFormed(raw) && |raw.times| > 0
    ensures d.time == raw.times[0]
  {
    var rain := DayRain(raw);
    DayRecord(raw.times[0], DailyMeanRain(rain.values), DailyMaxRain(rain.values), DailyMaxTime(rain.times, rain.values))
  }

  /** The day's time of max is one of its hourly labels, so it is on the
      hour, and the day's max is within the QC limit. */
  lemma DaySummaryProperties(raw: Series)
    requires WellFormed(raw) && |raw.times| > 0
    ensures MinuteOfHour(DaySummary(raw).maxTime) == 0
    ensures DaySummary(raw).maxTime in DayRain(raw).times
    ensures DaySummary(raw).maxRain.Some? ==> DaySummary(raw).maxRain.value <= QcMax
  {
    var rain := DayRain(raw);
    var d := DaySummary(raw);
    HourlyLabels(QcSeries(raw));
    DayRainWithinQc(raw);
    assert d.maxTime == DailyMaxTime(rain.times, rain.values);
    var p :| 0 <= p < |rain.times| && rain.times[p] == d.maxTime;
    assert d.maxRain == DailyMaxRain(rain.values);
    if d.maxRain.Some? {
      var i :| 0 <= i < |rain.values| && rain.values[i] == d.maxRain;
    }
  }

  /** The annual record: the earliest day's time (the record's own time),
      the max of the daily maxes, the time of the day holding it, and the
      latest day's time (the `max_time` attribute). */
  datatype AnnualRecord = AnnualRecord(time: int, maxV: Option<real>, maxVTime: int, maxTimeAttr: int)

  /** The dailyMaxRain column. */
  function DayMaxes(ds: seq<DayRecord>): (r: seq<Option<real>>)
    ensures |r| == |ds| && forall i :: 0 <= i < |ds| ==> r[i] == ds[i].maxRain
  {
    seq(|ds|, i requires 0 <= i < |ds| => ds[i].maxRain)
  }

  /** The time coordinate. */
  function DayTimes(ds: seq<DayRecord>): (r: seq<int>)
    ensures |r| == |ds| && forall i :: 0 <= i < |ds| ==> r[i] == ds[i].time
  {
    seq(|ds|, i requires 0 <= i < |ds| => ds[i].time)
  }

  /** `annual_process(DS_daily)`: the NaN-skipping max of the daily maxes
      and the dailyMaxTime of the first day that is largest once missing
      maxes count as 0 (no all-missing mask), stamped with the earliest and
      latest day times. */
  function AnnualProcess(ds: seq<DayRecord>): (a: AnnualRecord)
    requires |ds| > 0
    ensures a.time <= a.maxTimeAttr
  {
    var maxes := DayMaxes(ds);
    var times := DayTimes(ds);
    AnnualRecord(Earliest(times), MaxPresent(maxes), ds[FilledArgmax(maxes)].maxTime, Latest(times))
  }

  /** maxV is missing exactly when every day's max is; otherwise it is one
      of the daily maxes and no smaller than any of them. */
  lemma AnnualMax(ds: seq<DayRecord>)
    requires |ds| > 0
    ensures var a := AnnualProcess(ds);
      && (a.maxV.None? <==> forall i :: 0 <= i < |ds| ==> ds[i].maxRain.None?)
      && (a.maxV.Some? ==> exists i :: 0 <= i < |ds| && ds[i].maxRain == a.maxV)
      && (a.maxV.Some? ==> forall i :: 0 <= i < |ds| && ds[i].maxRain.Some? ==> ds[i].maxRain.value <= a.maxV.value)
  {
    var maxes := DayMaxes(ds);
    var mx := MaxPresent(maxes);
    assert AnnualProcess(ds).maxV == mx;
    if mx.Some? {
      var i :| 0 <= i < |maxes| && maxes[i] == mx;
      assert ds[i].maxRain == mx;
    }
  }

  /** maxVTime is the dailyMaxTime of the first day whose max, counting a
      missing one as 0, is largest. */
  lemma AnnualMaxTime(ds: seq<DayRecord>)
    requires |ds| > 0
    ensures var a := AnnualProcess(ds);
      exists k :: 0 <= k < |ds| && a.maxVTime == ds[k].maxTime &&
        (forall j :: 0 <= j < |ds| ==> Filled(ds[j].maxRain) <= Filled(ds[k].maxRain)) &&
        (forall j :: 0 <= j < k ==> Filled(ds[j].maxRain) < Filled(ds[k].maxRain))
  {
    var maxes := DayMaxes(ds);
    var k := FilledArgmax(maxes);
    assert AnnualProcess(ds).maxVTime == ds[k].maxTime;
    assert forall j :: 0 <= j < |ds| ==> maxes[j] == ds[j].maxRain;
  }

  /** The day maxVTime comes from holds maxV itself when maxV is positive or
      no day is missing. */
  lemma AnnualMaxTimeHoldsMax(ds: seq<DayRecord>)
    requires |ds| > 0
    ensures var a := AnnualProcess(ds);
      a.maxV.Some? && (a.maxV.value > 0.0 || forall i :: 0 <= i < |ds| ==> ds[i].maxRain.Some?) ==>
        exists k :: 0 <= k < |ds| && a.maxVTime == ds[k].maxTime && ds[k].maxRain == a.maxV
  {
    var maxes := DayMaxes(ds);
    var k := FilledArgmax(maxes);
    var a := AnnualProcess(ds);
    assert a.maxVTime == ds[k].maxTime && a.maxV == MaxPresent(maxes);
    if a.maxV.Some? && (a.maxV.value > 0.0 || forall i :: 0 <= i < |ds| ==> ds[i].maxRain.Some?) {
      FilledArgmaxFindsMax(maxes);
      assert !AnyMissing(maxes) || a.maxV.value > 0.0;
      assert ds[k].maxRain == a.maxV;
    }
  }

  /** When every day is missing, maxVTime is the first day's time of max. */
  lemma AnnualMaxTimeAllMissing(ds: seq<DayRecord>)
    requires |ds| > 0 && forall i :: 0 <= i < |ds| ==> ds[i].maxRain.None?
    ensures AnnualProcess(ds).maxVTime == ds[0].maxTime
  {
    var maxes := DayMaxes(ds);
    assert AllMissing(maxes);
    FilledArgmaxFindsMax(maxes);
  }

  /** The record's time is the earliest day's and the `max_time` attribute
      the latest day's; both are days of the year, bracketing all others. */
  lemma AnnualTimes(ds: seq<DayRecord>)
    requires |ds| > 0
    ensures var a := AnnualProcess(ds);
      && (exists i :: 0 <= i < |ds| && ds[i].time == a.time)
      && (exists i :: 0 <= i < |ds| && ds[i].time == a.maxTimeAttr)
      && (forall i :: 0 <= i < |ds| ==> a.time <= ds[i].time <= a.maxTimeAttr)
  {
    var times := DayTimes(ds);
    var a := AnnualProcess(ds);
    assert a.time == Earliest(times) && a.maxTimeAttr == Latest(times);
    var i :| 0 <= i < |times| && times[i] == a.time;
    var j :| 0 <= j < |times| && times[j] == a.maxTimeAttr;
    assert ds[i].time == a.time && ds[j].time == a.maxTimeAttr;
  }

  /** The daily records of a year's day files, in order. */
  function Records(files: seq<Series>): (ds: seq<DayRecord>)
    requires forall i :: 0 <= i < |files| ==> WellFormed(files[i]) && |files[i].times| > 0
    ensures |ds| == |files|
  {
    if |files| == 0 then [] else Records(files[..|files| - 1]) + [DaySummary(files[|files| - 1])]
  }

  /** Record i is the summary of file i. */
  lemma {:induction false} RecordsAt(files: seq<Series>, i: nat)
    requires forall j :: 0 <= j < |files| ==> WellFormed(files[j]) && |files[j].times| > 0
    requires i < |files|
    ensures Records(files)[i] == DaySummary(files[i])
  {
    if i < |files| - 1 {
      var front := files[..|files| - 1];
      RecordsAt(front, i);
    }
  }

  /** The sample count of each file (`len(rain.time)` before resampling). */
  function Counts(files: seq<Series>): (cs: seq<nat>)
    ensures |cs| == |files|
    ensures forall i :: 0 <= i < |files| ==> cs[i] == |files[i].times|
  {
    if |files| == 0 then [] else Counts(files[..|files| - 1]) + [|files[|files| - 1].times|]
  }

  /** The time of each file's first sample. */
  function Starts(files: seq<Series>): (ts: seq<int>)
    requires forall i :: 0 <= i < |files| ==> |files[i].times| > 0
    ensures |ts| == |files|
    ensures forall i :: 0 <= i < |files| ==> ts[i] == files[i].times[0]
  {
    if |files| == 0 then [] else Starts(files[..|files| - 1]) + [files[|files| - 1].times[0]]
  }

  /** One more file extends the records, the counts and the start times
      by that file's entries, after whatever came before. */
  lemma YearStep(files: seq<Series>, n: nat)
    requires forall i :: 0 <= i < |files| ==> WellFormed(files[i]) && |files[i].times| > 0
    requires n < |files|
    ensures Records(files[..n + 1]) == Records(files[..n]) + [DaySummary(files[n])]
    ensures Counts(files[..n + 1]) == Counts(files[..n]) + [|files[n].times|]
    ensures Starts(files[..n + 1]) == Starts(files[..n]) + [files[n].times[0]]
  {
    assert files[..n + 1][..n] == files[..n];
  }

  /** End to end: no raw artefact above the QC limit reaches a year's max. */
  lemma AnnualWithinQc(files: seq<Series>)
    requires |files| > 0
    requires forall i :: 0 <= i < |files| ==> WellFormed(files[i]) && |files[i].times| > 0
    ensures AnnualProcess(Records(files)).maxV.Some? ==> AnnualProcess(Records(files)).maxV.value <= QcMax
  {
    var ds := Records(files);
    AnnualMax(ds);
    var a := AnnualProcess(ds);
    if a.maxV.Some? {
      var i :| 0 <= i < |ds| && ds[i].maxRain == a.maxV;
      RecordsAt(files, i);
      DaySummaryProperties(files[i]);
    }
  }

  /** The file loop's state: the year's daily records (`ds_annual`), the
      sample count and first time of every file processed (`count_data`,
      `count_time`, kept across years). */
  class DailyMaxRun {
    var dsAnnual: seq<DayRecord>
    var countData: seq<nat>
    var countTime: seq<int>

    /** The two count lists stay in step, one entry per file. */
    predicate Valid()
      reads this
    {
      |countData| == |countTime|
    }

    /** `count_data = []`, `count_time = []`, before any year. */
    constructor ()
      ensures Valid()
      ensures dsAnnual == [] && countData == [] && countTime == []
    {
      dsAnnual, countData, countTime := [], [], [];
    }

    /** The start of a year: `ds_annual = []`. */
    method StartYear()
      requires Valid()
      modifies this
      ensures Valid()
      ensures dsAnnual == []
      ensures countData == old(countData) && countTime == old(countTime)
    {
      dsAnnual := [];
    }

    /** One pass of the file loop: record the file's first time and sample
        count, and append the day's record. */
    method AddFile(raw: Series)
      requires Valid() && WellFormed(raw) && |raw.times| > 0
      modifies this
      ensures Valid()
      ensures countTime == old(countTime) + [raw.times[0]]
      ensures countData == old(countData) + [|raw.times|]
      ensures dsAnnual == old(dsAnnual) + [DaySummary(raw)]
    {
      var time := raw.times[0];
      countTime := countTime + [time];
      countData := countData + [|raw.times|];
      dsAnnual := dsAnnual + [DaySummary(raw)];
    }

    /** A year: every file is processed in order, then `annual_process`
        reduces the year's records. Each file adds exactly one entry to each
        count list. */
    method RunYear(files: seq<Series>) returns (annual: AnnualRecord)
      requires Valid() && |files| > 0
      requires forall i :: 0 <= i < |files| ==> WellFormed(files[i]) && |files[i].times| > 0
      modifies this
      ensures Valid()
      ensures dsAnnual == Records(files)
      ensures annual == AnnualProcess(Records(files))
      ensures countData == old(countData) + Counts(files)
      ensures countTime == old(countTime) + Starts(files)
    {
      StartYear();
      var n := 0;
      while n < |files|
        invariant 0 <= n <= |files|
        invariant Valid()
        invariant dsAnnual == Records(files[..n])
        invariant countData == old(countData) + Counts(files[..n])
        invariant countTime == old(countTime) + Starts(files[..n])
      {
        YearStep(files, n);
        AddFile(files[n]);
        n := n + 1;
      }
      assert files[..n] == files;
      annual := AnnualProcess(dsAnnual);
    }
  }
}

=== FILE: monthly.dfy ===
/** The main loop of process_radar_data.py: day files arrive in order; each
    is quality-controlled and averaged to hourly rain, reduced by day with
    `process` (directly and after the 2-hour rolling mean) and buffered; when
    a day from a new calendar month arrives, the buffers are summarised with
    `end_period_process` and emptied first. */
module Monthly {
  import opened Series
  import opened Calendar
  import opened Resample
  import opened PeriodProcess
  import opened Rolling

  /** Every daily max the loop buffers, direct or 2-hour, is within the QC
      limit, given a remembered hour that is. */
  lemma DailyMaxesWithinQc(raw: Series, last: Option<Sample>)
    requires WellFormed(raw) && |raw.times| > 0
    requires last.Some? && last.value.value.Some? ==> last.value.value.value <= QcMax
    ensures forall p :: 0 <= p < |Process(DayRain(raw))| && Process(DayRain(raw))[p].max.Some? ==>
      Process(DayRain(raw))[p].max.value <= QcMax
    ensures forall p ::
      0 <= p < |Process(TwoHrSeries(last, DayRain(raw)))| && Process(TwoHrSeries(last, DayRain(raw)))[p].max.Some?
      ==> Process(TwoHrSeries(last, DayRain(raw)))[p].max.value <= QcMax
  {
    var rain := DayRain(raw);
    DayRainWithinQc(raw);
    ProcessAtMost(rain, QcMax);
    TwoHrSeriesAtMost(last, rain, QcMax);
    ProcessAtMost(TwoHrSeries(last, rain), QcMax);
  }

  /** The last hour of a day (`rain.isel(time=[-1])`). */
  function LastHour(rain: Series): (h: Sample)
    requires WellFormed(rain) && |rain.times| > 0
    ensures h.time == rain.times[|rain.times| - 1]
    ensures h.value == rain.values[|rain.values| - 1]
    ensures forall i :: 0 <= i < |rain.times| ==> rain.times[i] <= h.time
  {
    Sample(rain.times[|rain.times| - 1], rain.values[|rain.values| - 1])
  }

  /** Number of days summarised by a list of written monthly files. */
  function DaysWritten(ws: seq<PeriodFile>): nat {
    if |ws| == 0 then 0 else DaysWritten(ws[..|ws| - 1]) + ws[|ws| - 1].days
  }

  /** The loop's state: the two buffers of per-day `process` results, the
      previous day's last hour and its month, and the monthly files written
      so far (direct and 2-hour). */
  class MonthlyAccumulator {
    var dailyData: seq<seq<PeriodStat>>
    var dailyData2hr: seq<seq<PeriodStat>>
    var last: Option<Sample>
    var lastMonth: Option<int>
    var written: seq<PeriodFile>
    var written2hr: seq<PeriodFile>

    /** Both buffers hold one entry per day since the last flush; the
        remembered month is that of the remembered hour; and a previous hour
        is remembered exactly when the buffers are non-empty. */
    predicate Valid()
      reads this
    {
      && |dailyData| == |dailyData2hr|
      && (forall i :: 0 <= i < |dailyData| ==> |dailyData[i]| > 0)
      && (forall i :: 0 <= i < |dailyData2hr| ==> |dailyData2hr[i]| > 0)
      && (last.Some? <==> |dailyData| > 0)
      && (last.None? <==> lastMonth.None?)
      && (last.Some? ==> lastMonth == Some(MonthOf(last.value.time)))
    }

    /** `last_month = None`, `last = None`, empty buffers. */
    constructor ()
      ensures Valid()
      ensures dailyData == [] && dailyData2hr == [] && last.None? && lastMonth.None?
      ensures written == [] && written2hr == []
    {
      dailyData, dailyData2hr := [], [];
      last, lastMonth := None, None;
      written, written2hr := [], [];
    }

    /** The flush (`end_period_process` on both buffers, then empty them):
        one monthly file each, holding every buffered day. The remembered
        hour and month are kept for the next day's seam. */
    method Flush()
      requires Valid() && |dailyData| > 0
      modifies this
      ensures written == old(written) + EndPeriodProcess(old(dailyData))
      ensures written2hr == old(written2hr) + EndPeriodProcess(old(dailyData2hr))
      ensures DaysWritten(written) == old(DaysWritten(written)) + old(|dailyData|)
      ensures DaysWritten(written2hr) == old(DaysWritten(written2hr)) + old(|dailyData2hr|)
      ensures dailyData == [] && dailyData2hr == []
      ensures last == old(last) && lastMonth == old(lastMonth)
    {
      FlushDays(written, dailyData);
      FlushDays(written2hr, dailyData2hr);
      written, written2hr := written + EndPeriodProcess(dailyData), written2hr + EndPeriodProcess(dailyData2hr);
      dailyData, dailyData2hr := [], [];
    }

    /** Buffer one day's `process` results (direct and 2-hour) and remember
        the day's last hour and its month. */
    method Buffer(day: seq<PeriodStat>, day2hr: seq<PeriodStat>, h: Sample)
      requires |day| > 0 && |day2hr| > 0
      requires |dailyData| == |dailyData2hr|
      requires forall i :: 0 <= i < |dailyData| ==> |dailyData[i]| > 0
      requires forall i :: 0 <= i < |dailyData2hr| ==> |dailyData2hr[i]| > 0
      modifies this
      ensures Valid()
      ensures dailyData == old(dailyData) + [day] && dailyData2hr == old(dailyData2hr) + [day2hr]
      ensures last == Some(h)
      ensures written == old(written) && written2hr == old(written2hr)
    {
      dailyData, dailyData2hr := dailyData + [day], dailyData2hr + [day2hr];
      last, lastMonth := Some(h), Some(MonthOf(h.time));
    }

    /** One pass of the loop body for a day's hourly rain: flush both buffers
        when a month is remembered and the day's first hour falls in another
        month; then buffer the day. Every day is accounted for once, either
        in a written file or in the buffers. */
    method Push(rain: Series) returns (flushed: bool)
      requires Valid() && WellFormed(rain) && |rain.times| > 0
      modifies this
      ensures Valid()
      ensures flushed <==> old(lastMonth).Some? && MonthOf(rain.times[0]) != old(lastMonth).value
      ensures flushed ==> old(|dailyData|) > 0
      ensures written == old(written) + (if flushed then EndPeriodProcess(old(dailyData)) else [])
      ensures written2hr == old(written2hr) + (if flushed then EndPeriodProcess(old(dailyData2hr)) else [])
      ensures dailyData == (if flushed then [] else old(dailyData)) + [Process(rain)]
      ensures dailyData2hr == (if flushed then [] else old(dailyData2hr)) + [Process(TwoHrSeries(old(last), rain))]
      ensures last == Some(LastHour(rain))
      ensures DaysWritten(written) + |dailyData| == old(DaysWritten(written) + |dailyData|) + 1
      ensures DaysWritten(written2hr) + |dailyData2hr| == old(DaysWritten(written2hr) + |dailyData2hr|) + 1
    {
      flushed := lastMonth.Some? && MonthOf(rain.times[0]) != lastMonth.value;
      if flushed {
        Flush();
      } else {
        assert written + [] == written && written2hr + [] == written2hr;
      }
      Buffer(Process(rain), Process(TwoHrSeries(last, rain)), LastHour(rain));
    }
  }

  /** Written files plus buffered entries account for `n` days. */
  predicate Accounts(acc: MonthlyAccumulator, n: nat)
    reads acc
  {
    DaysWritten(acc.written) + |acc.dailyData| == n && DaysWritten(acc.written2hr) + |acc.dailyData2hr| == n
  }

  /** Every day is a well-formed, non-empty series. */
  predicate DayFiles(days: seq<Series>) {
    forall i :: 0 <= i < |days| ==> WellFormed(days[i]) && |days[i].times| > 0
  }

  /** The hour remembered when day k arrives: the last hour of day k - 1. */
  function PrevHour(days: seq<Series>, k: int): Option<Sample>
    requires DayFiles(days) && 0 <= k <= |days|
  {
    if k == 0 then None else Some(LastHour(DayRain(days[k - 1])))
  }

  /** What the loop makes of one day: the month of its first hour, the month
      of its last hour, its entries in the direct and 2-hour buffers, and the
      last hour it leaves for the next day. */
  datatype DayView = DayView(opens: int, closes: int, direct: seq<PeriodStat>, twoHr: seq<PeriodStat>, lastHour: Sample)

  /** Day k after the QC filter and the hourly mean; its 2-hour entry is
      seamed to the last hour of day k - 1. */
  function View(days: seq<Series>, k: int): (v: DayView)
    requires DayFiles(days) && 0 <= k < |days|
    ensures 1 <= v.opens <= 12 && 1 <= v.closes <= 12 && |v.direct| > 0 && |v.twoHr| > 0
  {
    var rain := DayRain(days[k]);
    DayView(MonthOf(rain.times[0]), MonthOf(LastHour(rain).time),
            Process(rain), Process(TwoHrSeries(PrevHour(days, k), rain)), LastHour(rain))
  }

  /** Day k starts in another month than the one in which day k - 1 ended,
      so the loop flushes the buffers before it buffers day k. */
  predicate MonthChange(vs: seq<DayView>, k: int)
    requires 0 < k < |vs|
  {
    vs[k].opens != vs[k - 1].closes
  }

  /** Day j opens a month (or the run) and no later day up to n opens
      another. */
  predicate SinceChange(vs: seq<DayView>, j: int, n: int)
    requires 0 <= j < n <= |vs|
  {
    && (j > 0 ==> MonthChange(vs, j))
    && (forall k :: j < k < n ==> !MonthChange(vs, k))
  }

  /** The direct buffer entries of days lo to hi - 1. */
  function Buffered(vs: seq<DayView>, lo: int, hi: int): seq<seq<PeriodStat>>
    requires 0 <= lo <= hi <= |vs|
    decreases hi
  {
    if lo == hi then [] else Buffered(vs, lo, hi - 1) + [vs[hi - 1].direct]
  }

  /** The 2-hour buffer entries of days lo to hi - 1. */
  function Buffered2hr(vs: seq<DayView>, lo: int, hi: int): seq<seq<PeriodStat>>
    requires 0 <= lo <= hi <= |vs|
    decreases hi
  {
    if lo == hi then [] else Buffered2hr(vs, lo, hi - 1) + [vs[hi - 1].twoHr]
  }

  /** One loop step on the month boundaries: a month change at day n opens a
      new month; otherwise day n joins the current one. */
  lemma SinceChangeStep(vs: seq<DayView>, start: int, n: int, flushed: bool)
    requires 0 <= start <= n < |vs| && (n > 0 ==> start < n)
    requires n > 0 ==> SinceChange(vs, start, n)
    requires flushed == (n > 0 && MonthChange(vs, n))
    ensures SinceChange(vs, if flushed then n else start, n + 1)
  {
  }

  /** One loop step on the buffers: day n either starts them afresh (a
      month change) or joins the days from start on. */
  lemma BufferedStep(vs: seq<DayView>, start: int, n: int, flushed: bool, d: seq<seq<PeriodStat>>, d2: seq<seq<PeriodStat>>)
    requires 0 <= start <= n < |vs|
    requires n == 0 ==> !flushed && d == [] && d2 == []
    requires n > 0 ==> d == Buffered(vs, start, n) && d2 == Buffered2hr(vs, start, n)
    ensures var j := if flushed then n else start;
      && (if flushed then [] else d) + [vs[n].direct] == Buffered(vs, j, n + 1)
      && (if flushed then [] else d2) + [vs[n].twoHr] == Buffered2hr(vs, j, n + 1)
  {
  }

  /** The accumulator after the first `n` days: every day is accounted for,
      the last hour is remembered, and the buffers hold exactly the days from
      `start`, the last month change, on. */
  predicate Tracks(acc: MonthlyAccumulator, vs: seq<DayView>, n: int, start: int)
    reads acc
    requires 0 <= n <= |vs|
  {
    && acc.Valid()
    && Accounts(acc, n)
    && acc.last == (if n == 0 then None else Some(vs[n - 1].lastHour))
    && (n == 0 ==> acc.dailyData == [] && acc.dailyData2hr == [])
    && 0 <= start <= n && (n > 0 ==> start < n)
    && (n > 0 ==> SinceChange(vs, start, n))
    && (n > 0 ==> acc.dailyData == Buffered(vs, start, n) && acc.dailyData2hr == Buffered2hr(vs, start, n))
  }

  /** One pass of the loop: push day `n` and follow the month boundary. */
  method PushDay(acc: MonthlyAccumulator, days: seq<Series>, ghost vs: seq<DayView>, n: nat, ghost start: int)
    returns (ghost start': int)
    requires DayFiles(days) && |vs| == |days| && n < |days|
    requires forall k {:trigger View(days, k)} :: 0 <= k < |days| ==> vs[k] == View(days, k)
    requires Tracks(acc, vs, n, start)
    modifies acc
    ensures Tracks(acc, vs, n + 1, start')
  {
    assert vs[n] == View(days, n);
    if n > 0 {
      assert vs[n - 1] == View(days, n - 1);
    }
    var rain := DayRain(days[n]);
    ghost var d, d2 := acc.dailyData, acc.dailyData2hr;
    var flushed := acc.Push(rain);
    assert Accounts(acc, n + 1);
    assert flushed == (n > 0 && MonthChange(vs, n));
    SinceChangeStep(vs, start, n, flushed);
    BufferedStep(vs, start, n, flushed, d, d2);
    start' := if flushed then n else start;
  }

  /** The loop over all day files (`for year ...: for f in files:`), each
      quality-controlled and averaged to hourly rain before it is pushed;
      `vs` names the days as the loop sees them. Every day ends up either in
      a written monthly file or still in the buffers. Since nothing is
      flushed after the loop, the final month's days are never written: a
      non-empty run ends with the buffers holding exactly the days from the
      last month change on, and remembering the last day's last hour. */
  method RunMonthly(days: seq<Series>, ghost vs: seq<DayView>) returns (acc: MonthlyAccumulator)
    requires DayFiles(days) && |vs| == |days|
    requires forall k {:trigger View(days, k)} :: 0 <= k < |days| ==> vs[k] == View(days, k)
    ensures acc.Valid()
    ensures DaysWritten(acc.written) + |acc.dailyData| == |days|
    ensures DaysWritten(acc.written2hr) + |acc.dailyData2hr| == |days|
    ensures |days| > 0 ==> |acc.dailyData| > 0 && |acc.dailyData2hr| > 0
    ensures |days| > 0 ==> acc.last == Some(vs[|days| - 1].lastHour)
    ensures |days| > 0 ==> exists j ::
      && 0 <= j < |days|
      && SinceChange(vs, j, |days|)
      && acc.dailyData == Buffered(vs, j, |days|)
      && acc.dailyData2hr == Buffered2hr(vs, j, |days|)
  {
    acc := new MonthlyAccumulator();
    var n := 0;
    ghost var start := 0;
    while n < |days|
      invariant 0 <= n <= |days|
      invariant Tracks(acc, vs, n, start)
    {
      start := PushDay(acc, days, vs, n, start);
      n := n + 1;
    }
    assert Accounts(acc, |days|);
    if |days| > 0 {
      assert 0 <= start < |days| && SinceChange(vs, start, |days|);
    }
  }

  /** Flushing a non-empty buffer adds its number of days to those written. */
  lemma FlushDays(ws: seq<PeriodFile>, buffer: seq<seq<PeriodStat>>)
    requires |buffer| > 0 && forall i :: 0 <= i < |buffer| ==> |buffer[i]| > 0
    ensures DaysWritten(ws + EndPeriodProcess(buffer)) == DaysWritten(ws) + |buffer|
  {
    AppendFile(ws, EndPeriodProcess(buffer));
  }

  /** Appending the one file a non-empty flush writes adds its day count. */
  lemma AppendFile(ws: seq<PeriodFile>, f: seq<PeriodFile>)
    requires |f| == 1
    ensures DaysWritten(ws + f) == DaysWritten(ws) + f[0].days
  {
    assert (ws + f)[..|ws|] == ws;
  }
}

=== FILE: period_max.dfy ===
/** The "compute blindly, then mask" reductions of process_radar_data.py:
    an index is chosen by numpy's argmax (which always yields one, even over
    an all-missing cell), the value or time at that index is selected, and
    the result is masked wherever every reading of the cell is missing. */
module PeriodMax {
  import opened Series

  /** `maxValue` with the chosen index as a parameter: select `da` at `idx`,
      then mask where all of `da` is missing. The mask holds whatever index
      was chosen. */
  function MaxValueAt(da: seq<Option<real>>, idx: nat): (r: Option<real>)
    requires idx < |da|
    ensures AllMissing(da) ==> r.None?
    ensures !AllMissing(da) ==> r == da[idx]
  {
    var bad := AllMissing(da);
    var selected := da[idx];
    if bad then None else selected
  }

  /** `maxValue(da, maxVar)`: the reading of `da` where `maxVar` is largest
      by `argmax(skipna=False)`, missing when every reading of `da` is. */
  function MaxValue(da: seq<Option<real>>, maxVar: seq<Option<real>>): (r: Option<real>)
    requires |da| == |maxVar| > 0
    ensures AllMissing(da) ==> r.None?
    ensures !AllMissing(da) && AnyMissing(maxVar) ==>
      exists k :: 0 <= k < |da| && r == da[k] && maxVar[k].None? &&
        forall j :: 0 <= j < k ==> maxVar[j].Some?
    ensures !AllMissing(da) && !AnyMissing(maxVar) ==>
      exists k :: 0 <= k < |da| && r == da[k] && maxVar[k] == MaxPresent(maxVar) &&
        forall j :: 0 <= j < k ==> maxVar[j].value < maxVar[k].value
  {
    ArgmaxFindsMax(maxVar);
    MaxValueAt(da, ArgmaxNaN(maxVar))
  }

  /** `time_of_max` with the chosen index as a parameter: the time at `idx`,
      masked where all of `da` is missing. */
  function TimeOfMaxAt(times: seq<int>, da: seq<Option<real>>, idx: nat): (r: Option<int>)
    requires |times| == |da| && idx < |da|
    ensures r.None? <==> AllMissing(da)
    ensures r.Some? ==> r.value == times[idx]
  {
    var bad := AllMissing(da);
    var selected := Some(times[idx]);
    if bad then None else selected
  }

  /** `time_of_max(da)`: the time at `argmax(skipna=False)`, missing exactly
      when every reading is missing. With nothing missing it is the time of
      the first largest reading; when some but not all readings are missing,
      numpy's argmax lands on the first missing one and so does the time. */
  function TimeOfMax(times: seq<int>, da: seq<Option<real>>): (r: Option<int>)
    requires |times| == |da| > 0
    ensures r.None? <==> AllMissing(da)
    ensures r.Some? ==> r.value in times
    ensures !AnyMissing(da) ==>
      exists k :: 0 <= k < |da| && r == Some(times[k]) && da[k] == MaxPresent(da) &&
        forall j :: 0 <= j < k ==> da[j].value < da[k].value
    ensures AnyMissing(da) && !AllMissing(da) ==>
      exists k :: 0 <= k < |da| && r == Some(times[k]) && da[k].None? &&
        forall j :: 0 <= j < k ==> da[j].Some?
  {
    ArgmaxFindsMax(da);
    TimeOfMaxAt(times, da, ArgmaxNaN(da))
  }

  /** Positions in a run are positions in the series shifted by the run's
      start: what holds below position k of the run holds below lo + k. */
  lemma RunPrefixBelow(da: seq<Option<real>>, lo: nat, hi: nat, k: nat)
    requires lo <= hi <= |da| && k < hi - lo
    requires forall j :: lo <= j < hi ==> da[j].Some?
    requires forall j :: 0 <= j < k ==> da[lo..hi][j].value < da[lo..hi][k].value
    ensures forall j :: lo <= j < lo + k ==> da[j].value < da[lo + k].value
  {
    var run := da[lo..hi];
    forall j | lo <= j < lo + k ensures da[j].value < da[lo + k].value {
      assert run[j - lo] == da[j] && run[k] == da[lo + k];
    }
  }

  /** `time_of_max` of the run lo..hi of a longer series, none of whose
      readings is missing: the time of the run's first largest reading. */
  lemma TimeOfMaxRunFirstMax(times: seq<int>, da: seq<Option<real>>, lo: nat, hi: nat)
    requires |times| == |da| && lo < hi <= |da|
    requires forall i :: lo <= i < hi ==> da[i].Some?
    ensures exists i :: lo <= i < hi && TimeOfMax(times[lo..hi], da[lo..hi]) == Some(times[i]) &&
                        da[i] == MaxPresent(da[lo..hi]) &&
                        (forall j :: lo <= j < i ==> da[j].value < da[i].value)
  {
    var run := da[lo..hi];
    assert !AnyMissing(run) by {
      forall k | 0 <= k < |run| ensures run[k].Some? {
        assert run[k] == da[lo + k];
      }
    }
    var k :| 0 <= k < |run| && TimeOfMax(times[lo..hi], run) == Some(times[lo..hi][k]) &&
      run[k] == MaxPresent(run) && forall j :: 0 <= j < k ==> run[j].value < run[k].value;
    RunPrefixBelow(da, lo, hi, k);
    assert run[k] == da[lo + k] && times[lo..hi][k] == times[lo + k];
  }

  /** `time_of_max` of the run lo..hi of a longer series with a missing and
      a present reading: the time of the run's first missing reading. */
  lemma TimeOfMaxRunFirstMissing(times: seq<int>, da: seq<Option<real>>, lo: nat, hi: nat, a: nat, b: nat)
    requires |times| == |da| && lo <= a < hi && lo <= b < hi && hi <= |da|
    requires da[a].None? && da[b].Some?
    ensures exists i :: lo <= i < hi && TimeOfMax(times[lo..hi], da[lo..hi]) == Some(times[i]) &&
                        da[i].None? && (forall j :: lo <= j < i ==> da[j].Some?)
  {
    var run := da[lo..hi];
    assert run[a - lo] == da[a] && run[b - lo] == da[b];
    assert AnyMissing(run) && !AllMissing(run);
    var k :| 0 <= k < |run| && TimeOfMax(times[lo..hi], run) == Some(times[lo..hi][k]) &&
      run[k].None? && forall j :: 0 <= j < k ==> run[j].Some?;
    assert run[k] == da[lo + k] && times[lo..hi][k] == times[lo + k];
    forall j | lo <= j < lo + k ensures da[j].Some? {
      assert run[j - lo] == da[j];
    }
  }

  /** A period whose only present reading is at position k: the period max is
      that reading, and its time is that reading's time only when no other
      reading is missing, i.e. when it is the period's only sample. Otherwise
      the time reported is that of the first missing reading. */
  lemma LonePresentReading(times: seq<int>, da: seq<Option<real>>, k: nat)
    requires |times| == |da| && k < |da| && Increasing(times)
    requires da[k].Some? && forall j :: 0 <= j < |da| && j != k ==> da[j].None?
    ensures MaxPresent(da) == da[k]
    ensures TimeOfMax(times, da) == Some(times[k]) <==> |da| == 1
    ensures |da| > 1 ==> TimeOfMax(times, da) == Some(times[if k == 0 then 1 else 0])
  {
    var m := MaxPresent(da);
    assert !AllMissing(da);
    var i :| 0 <= i < |da| && da[i] == m;
    if |da| > 1 {
      var first := if k == 0 then 1 else 0;
      assert da[first].None?;
      var r := TimeOfMax(times, da);
      var t :| 0 <= t < |da| && r == Some(times[t]) && da[t].None? && forall j :: 0 <= j < t ==> da[j].Some?;
      assert t == first;
    }
  }
}

=== FILE: period_process.dfy ===
/** The period reductions of process_radar_data.py: `process` (resample a
    cell's hourly series by day into max, total and time of max),
    `time_process` (summarise a run of such daily entries) and the non-empty
    and empty paths of `end_period_process`. */
module PeriodProcess {
  import opened Series
  import opened Calendar
  import opened Resample
  import opened PeriodMax

  /** One left-labelled period of `process`: the period's start and its
      dailyTotal, dailyMax and dailyMaxTime. */
  datatype PeriodStat = PeriodStat(time: int, total: Option<real>, max: Option<real>, maxTime: Option<int>)

  /** The summary of `time_process`: Mean, Max, MaxTime and the `max_time`
      attribute (the latest period start). */
  datatype Summary = Summary(mean: Option<real>, max: Option<real>, maxTime: Option<int>, latest: int)

  /** What `end_period_process` writes for a non-empty buffer: the number of
      buffered datasets and the concatenated daily data, with the summary
      `time_process` makes of that data beside it. */
  datatype PeriodFile = PeriodFile(days: nat, daily: seq<PeriodStat>) {
    function Summarised(): Summary
      requires |daily| > 0
    {
      TimeProcess(daily)
    }
  }

  /** The reductions of one resampling group: NaN-skipping sum and max, and
      `time_of_max` (a group without samples counts as all missing). The
      resampler fills a group without samples with NaN, so its Total is
      missing; a group whose samples are all missing sums to 0. */
  function Stat(g: Series, start: int): (st: PeriodStat)
    requires |g.times| == |g.values|
    ensures st.time == start
    ensures st.total.None? <==> |g.values| == 0
    ensures st.total.Some? ==> st.total.value == SumPresent(g.values)
    ensures st.max.None? <==> AllMissing(g.values)
    ensures st.maxTime.None? <==> AllMissing(g.values)
    ensures st.maxTime.Some? ==> st.maxTime.value in g.times
  {
    PeriodStat(start, if |g.values| == 0 then None else Some(SumPresent(g.values)), MaxPresent(g.values),
      if |g.values| == 0 then None else TimeOfMax(g.times, g.values))
  }

  /** The entry of the day with key `key`, labelled with the day's start. */
  function DayStat(s: Series, key: int): (st: PeriodStat)
    requires WellFormed(s)
    ensures st.time == key * MinutesPerDay
  {
    Stat(Period(s, MinutesPerDay, key), key * MinutesPerDay)
  }

  /** `process(dataArray)` with resample='1D' and total=True: one entry per
      calendar day from the day of the first sample to the day of the last. */
  function Process(s: Series): (out: seq<PeriodStat>)
    requires WellFormed(s) && |s.times| > 0
    ensures |out| > 0
  {
    var first := s.times[0] / MinutesPerDay;
    var last := s.times[|s.times| - 1] / MinutesPerDay;
    DivMonotone(s.times[0], s.times[|s.times| - 1], MinutesPerDay);
    var n := last - first + 1;
    seq(n, p requires 0 <= p < n => DayStat(s, first + p))
  }

  /** The entries of `process` are the days from the first sample's to the
      last sample's in order, each labelled with its start, so consecutive
      entries are a day apart. */
  lemma ProcessDays(s: Series)
    requires WellFormed(s) && |s.times| > 0
    ensures var out := Process(s); var first := s.times[0] / MinutesPerDay;
      && |out| == s.times[|s.times| - 1] / MinutesPerDay - first + 1
      && (forall p :: 0 <= p < |out| ==> out[p] == DayStat(s, first + p))
      && (forall p :: 0 <= p < |out| ==> out[p].time == (first + p) * MinutesPerDay)
  {
  }

  /** Entry p of `process` is the day `p` days after the first sample's. */
  lemma ProcessDay(s: Series, p: nat)
    requires WellFormed(s) && |s.times| > 0 && p < |Process(s)|
    ensures Process(s)[p] == DayStat(s, s.times[0] / MinutesPerDay + p)
  {
  }

  /** The day of `key` against the samples of that day: Max is missing
      exactly when no sample of the day is present, and is otherwise a
      present sample of that day no smaller than any other. */
  lemma DayStatMax(s: Series, key: int)
    requires WellFormed(s)
    ensures var st := DayStat(s, key);
      && (st.max.None? <==>
            forall i :: 0 <= i < |s.times| && s.times[i] / MinutesPerDay == key ==> s.values[i].None?)
      && (st.max.Some? ==>
            exists i :: 0 <= i < |s.times| && s.times[i] / MinutesPerDay == key && s.values[i] == st.max)
      && (forall i :: 0 <= i < |s.times| && s.times[i] / MinutesPerDay == key && s.values[i].Some? ==>
            st.max.Some? && s.values[i].value <= st.max.value)
  {
    assert DayStat(s, key).max == MaxPresent(Period(s, MinutesPerDay, key).values);
    PeriodAllMissing(s, MinutesPerDay, key);
    PeriodMaxPresent(s, MinutesPerDay, key);
  }

  /** The MaxTime of the day of `key` is missing exactly when every sample
      of that day is missing (or the day has none), and is otherwise the
      time of one of that day's own samples. */
  lemma DayStatMaxTime(s: Series, key: int)
    requires WellFormed(s)
    ensures var st := DayStat(s, key);
      && (st.maxTime.None? <==>
            forall i :: 0 <= i < |s.times| && s.times[i] / MinutesPerDay == key ==> s.values[i].None?)
      && (st.maxTime.Some? ==>
            exists i :: 0 <= i < |s.times| && s.times[i] / MinutesPerDay == key && s.times[i] == st.maxTime.value)
    ensures var g := Period(s, MinutesPerDay, key);
      DayStat(s, key).maxTime == if |g.values| == 0 then None else TimeOfMax(g.times, g.values)
  {
    var g := Period(s, MinutesPerDay, key);
    assert DayStat(s, key).maxTime == if |g.values| == 0 then None else TimeOfMax(g.times, g.values);
    PeriodAllMissing(s, MinutesPerDay, key);
    PeriodTimes(s, MinutesPerDay, key);
  }

  /** The samples of the day of `key` are those from position lo up to hi. */
  lemma DayRun(s: Series, key: int)
    requires WellFormed(s)
    ensures var lo, hi := CountUpTo(s.times, MinutesPerDay, key - 1), CountUpTo(s.times, MinutesPerDay, key);
      && lo <= hi
      && Period(s, MinutesPerDay, key) == Series(s.times[lo..hi], s.values[lo..hi])
      && (forall j :: 0 <= j < |s.times| && s.times[j] / MinutesPerDay == key ==> lo <= j < hi)
      && (forall j :: lo <= j < hi ==> s.times[j] / MinutesPerDay == key)
  {
    PeriodSlice(s, MinutesPerDay, key);
  }

  /** A day none of whose samples is missing: its MaxTime is the time of
      the first of its samples holding the day's Max. */
  lemma DayStatFirstMax(s: Series, key: int)
    requires WellFormed(s)
    requires forall i :: 0 <= i < |s.times| && s.times[i] / MinutesPerDay == key ==> s.values[i].Some?
    ensures var st := DayStat(s, key);
      st.maxTime.Some? ==>
        exists i :: 0 <= i < |s.times| && s.times[i] / MinutesPerDay == key &&
          st.maxTime == Some(s.times[i]) && s.values[i] == st.max &&
          forall j :: 0 <= j < i && s.times[j] / MinutesPerDay == key ==> s.values[j].value < s.values[i].value
  {
    var st := DayStat(s, key);
    DayRun(s, key);
    var lo, hi := CountUpTo(s.times, MinutesPerDay, key - 1), CountUpTo(s.times, MinutesPerDay, key);
    if st.maxTime.Some? {
      assert lo < hi;
      assert forall i :: lo <= i < hi ==> s.values[i].Some?;
      TimeOfMaxRunFirstMax(s.times, s.values, lo, hi);
      var i :| lo <= i < hi && TimeOfMax(s.times[lo..hi], s.values[lo..hi]) == Some(s.times[i]) &&
        s.values[i] == MaxPresent(s.values[lo..hi]) && (forall j :: lo <= j < i ==> s.values[j].value < s.values[i].value);
      assert st.maxTime == Some(s.times[i]) && s.values[i] == st.max;
      assert s.times[i] / MinutesPerDay == key;
      forall j | 0 <= j < i && s.times[j] / MinutesPerDay == key
        ensures s.values[j].value < s.values[i].value
      {
        assert lo <= j;
      }
    }
  }

  /** A day with a missing sample and a present one: its MaxTime is the
      time of the day's first missing sample. */
  lemma DayStatFirstMissing(s: Series, key: int)
    requires WellFormed(s)
    requires exists i :: 0 <= i < |s.times| && s.times[i] / MinutesPerDay == key && s.values[i].None?
    requires exists i :: 0 <= i < |s.times| && s.times[i] / MinutesPerDay == key && s.values[i].Some?
    ensures exists i :: 0 <= i < |s.times| && s.times[i] / MinutesPerDay == key &&
                        DayStat(s, key).maxTime == Some(s.times[i]) && s.values[i].None? &&
                        (forall j :: 0 <= j < i && s.times[j] / MinutesPerDay == key ==> s.values[j].Some?)
  {
    DayRun(s, key);
    var lo, hi := CountUpTo(s.times, MinutesPerDay, key - 1), CountUpTo(s.times, MinutesPerDay, key);
    var a :| 0 <= a < |s.times| && s.times[a] / MinutesPerDay == key && s.values[a].None?;
    var b :| 0 <= b < |s.times| && s.times[b] / MinutesPerDay == key && s.values[b].Some?;
    TimeOfMaxRunFirstMissing(s.times, s.values, lo, hi, a, b);
    var i :| lo <= i < hi && TimeOfMax(s.times[lo..hi], s.values[lo..hi]) == Some(s.times[i]) &&
      s.values[i].None? && (forall j :: lo <= j < i ==> s.values[j].Some?);
    assert DayStat(s, key).maxTime == Some(s.times[i]);
    assert s.times[i] / MinutesPerDay == key;
    assert forall j :: 0 <= j < i && s.times[j] / MinutesPerDay == key ==> s.values[j].Some? by {
      forall j | 0 <= j < i && s.times[j] / MinutesPerDay == key ensures s.values[j].Some? {
        assert lo <= j;
      }
    }
  }

  /** The dailyTotal column. */
  function Totals(ds: seq<PeriodStat>): (r: seq<Option<real>>)
    ensures |r| == |ds| && forall i :: 0 <= i < |ds| ==> r[i] == ds[i].total
  {
    seq(|ds|, i requires 0 <= i < |ds| => ds[i].total)
  }

  /** Entries whose Totals sum consecutive slices vals[cuts[p]..cuts[p + 1]]
      of a series starting at cut 0: the first m of them add up to the sum
      of vals[..cuts[m]]. */
  lemma {:induction false} PrefixSums(vals: seq<Option<real>>, cuts: seq<int>, out: seq<PeriodStat>, m: nat)
    requires |cuts| == |out| + 1 && cuts[0] == 0 && m <= |out|
    requires forall i, j :: 0 <= i <= j <= |out| ==> 0 <= cuts[i] <= cuts[j] <= |vals|
    requires forall p :: 0 <= p < |out| ==> Filled(out[p].total) == SumPresent(vals[cuts[p]..cuts[p + 1]])
    ensures 0 <= cuts[m] <= |vals|
    ensures SumPresent(Totals(out[..m])) == SumPresent(vals[..cuts[m]])
  {
    if m == 0 {
      assert out[..0] == [];
      assert vals[..0] == [];
    } else {
      var lo, hi := cuts[m - 1], cuts[m];
      PrefixSums(vals, cuts, out, m - 1);
      assert vals[..hi] == vals[..lo] + vals[lo..hi];
      SumPresentAppend(vals[..lo], vals[lo..hi]);
      assert Totals(out[..m]) == Totals(out[..m - 1]) + [out[m - 1].total];
      SumPresentAppend(Totals(out[..m - 1]), [out[m - 1].total]);
    }
  }

  /** The day boundaries of a series: entry p is the number of samples
      before day p of `process`, and the last is the number of samples
      up to the end of the last day. */
  function DayCuts(s: Series): (cuts: seq<int>)
    requires WellFormed(s) && |s.times| > 0
    ensures |cuts| == |Process(s)| + 1
  {
    var first := s.times[0] / MinutesPerDay;
    seq(|Process(s)| + 1, p requires 0 <= p <= |Process(s)| => CountUpTo(s.times, MinutesPerDay, first + p - 1))
  }

  /** Day boundaries start at 0 and never decrease. */
  lemma DayCutsMonotone(s: Series)
    requires WellFormed(s) && |s.times| > 0
    ensures DayCuts(s)[0] == 0
    ensures forall i, j :: 0 <= i <= j < |DayCuts(s)| ==> 0 <= DayCuts(s)[i] <= DayCuts(s)[j] <= |s.values|
  {
    var cuts, first := DayCuts(s), s.times[0] / MinutesPerDay;
    var c0 := CountUpTo(s.times, MinutesPerDay, first - 1);
    assert c0 == 0;
    forall i, j | 0 <= i <= j < |cuts| ensures 0 <= cuts[i] <= cuts[j] <= |s.values| {
      CountUpToMonotone(s.times, MinutesPerDay, first + i - 1, first + j - 1);
    }
  }

  /** Each day's Total is the sum of the samples between its boundaries. */
  lemma DayCutsTotals(s: Series)
    requires WellFormed(s) && |s.times| > 0
    requires forall i, j :: 0 <= i <= j < |DayCuts(s)| ==> 0 <= DayCuts(s)[i] <= DayCuts(s)[j] <= |s.values|
    ensures forall p :: 0 <= p < |Process(s)| ==>
      Filled(Process(s)[p].total) == SumPresent(s.values[DayCuts(s)[p]..DayCuts(s)[p + 1]])
  {
    forall p | 0 <= p < |Process(s)|
      ensures Filled(Process(s)[p].total) == SumPresent(s.values[DayCuts(s)[p]..DayCuts(s)[p + 1]])
    {
      DayCutTotal(s, p);
    }
  }

  /** Day p's Total is the sum of the samples between its boundaries. */
  lemma DayCutTotal(s: Series, p: nat)
    requires WellFormed(s) && |s.times| > 0 && p < |Process(s)|
    requires 0 <= DayCuts(s)[p] <= DayCuts(s)[p + 1] <= |s.values|
    ensures Filled(Process(s)[p].total) == SumPresent(s.values[DayCuts(s)[p]..DayCuts(s)[p + 1]])
  {
    var key := s.times[0] / MinutesPerDay + p;
    var lo, hi := CountUpTo(s.times, MinutesPerDay, key - 1), CountUpTo(s.times, MinutesPerDay, key);
    assert DayCuts(s)[p] == lo && DayCuts(s)[p + 1] == hi;
    ProcessDay(s, p);
    assert Filled(Process(s)[p].total) == SumPresent(Period(s, MinutesPerDay, key).values);
    PeriodSlice(s, MinutesPerDay, key);
  }

  /** The Totals of the first m days of `process` sum the samples of those
      days. */
  lemma PrefixTotals(s: Series, m: nat)
    requires WellFormed(s) && |s.times| > 0 && m <= |Process(s)|
    ensures SumPresent(Totals(Process(s)[..m])) ==
      SumPresent(s.values[..CountUpTo(s.times, MinutesPerDay, s.times[0] / MinutesPerDay + m - 1)])
  {
    var cuts := DayCuts(s);
    assert cuts[m] == CountUpTo(s.times, MinutesPerDay, s.times[0] / MinutesPerDay + m - 1);
    DayCutsMonotone(s);
    DayCutsTotals(s);
    PrefixSums(s.values, cuts, Process(s), m);
  }

  /** The daily Totals of `process` add up to the NaN-skipping sum of the
      whole series: every present sample is counted in exactly one day. */
  lemma ProcessTotalConserved(s: Series)
    requires WellFormed(s) && |s.times| > 0
    ensures SumPresent(Totals(Process(s))) == SumPresent(s.values)
  {
    var out := Process(s);
    var n := |s.times|;
    ProcessDays(s);
    PrefixTotals(s, |out|);
    assert out[..|out|] == out;
    assert s.values[..n] == s.values;
  }

  /** A bound that every sample respects bounds every daily Max. */
  lemma ProcessAtMost(s: Series, c: real)
    requires WellFormed(s) && |s.times| > 0 && AtMost(s.values, c)
    ensures forall p :: 0 <= p < |Process(s)| && Process(s)[p].max.Some? ==> Process(s)[p].max.value <= c
  {
    forall p | 0 <= p < |Process(s)| && Process(s)[p].max.Some?
      ensures Process(s)[p].max.value <= c
    {
      ProcessDays(s);
      DayStatMax(s, s.times[0] / MinutesPerDay + p);
    }
  }

  /** The dailyMax column. */
  function Maxes(ds: seq<PeriodStat>): (r: seq<Option<real>>)
    ensures |r| == |ds| && forall i :: 0 <= i < |ds| ==> r[i] == ds[i].max
  {
    seq(|ds|, i requires 0 <= i < |ds| => ds[i].max)
  }

  /** The time coordinate. */
  function Times(ds: seq<PeriodStat>): (r: seq<int>)
    ensures |r| == |ds| && forall i :: 0 <= i < |ds| ==> r[i] == ds[i].time
  {
    seq(|ds|, i requires 0 <= i < |ds| => ds[i].time)
  }

  /** `time_process(DS)`: Mean is the NaN-skipping mean of the daily totals; Max is the
      NaN-skipping max of the daily maxes (TimeProcessMax); MaxTime is taken
      from the daily maxes with missing ones counted as 0
      (TimeProcessMaxTime); `latest` is the latest day (TimeProcessLatest). */
  function TimeProcess(ds: seq<PeriodStat>): (s: Summary)
    requires |ds| > 0
    ensures forall i :: 0 <= i < |ds| ==> ds[i].time <= s.latest
    ensures s.max.None? ==> s.maxTime == ds[0].maxTime
  {
    var maxes := Maxes(ds);
    FilledArgmaxFindsMax(maxes);
    Summary(MeanPresent(Totals(ds)), MaxPresent(maxes), ds[FilledArgmax(maxes)].maxTime, Latest(Times(ds)))
  }

  /** The summary's Mean is the mean of the present daily totals
      (MeanPresent, which times their number gives their sum): it is missing
      exactly when every day's Total is, and with no Total missing it is
      their plain mean. */
  lemma TimeProcessMean(ds: seq<PeriodStat>)
    requires |ds| > 0
    ensures var m := TimeProcess(ds).mean;
      && (m.None? <==> forall i :: 0 <= i < |ds| ==> ds[i].total.None?)
      && m == MeanPresent(Totals(ds))
      && ((forall i :: 0 <= i < |ds| ==> ds[i].total.Some?) ==>
            m == Some(PlainMean(SumPresent(Totals(ds)), |ds|)))
  {
    var ts := Totals(ds);
    var m := MeanPresent(ts);
    assert TimeProcess(ds).mean == m;
    assert AllMissing(ts) <==> forall i :: 0 <= i < |ds| ==> ds[i].total.None?;
    if forall i :: 0 <= i < |ds| ==> ds[i].total.Some? {
      assert !AnyMissing(ts);
      MeanPresentComplete(ts);
      assert m == Some(PlainMean(SumPresent(ts), |ds|));
    }
  }

  /** The summary's Max is missing exactly when every daily max is, and is
      otherwise one of the daily maxes, no smaller than any other. */
  lemma TimeProcessMax(ds: seq<PeriodStat>)
    requires |ds| > 0
    ensures var s := TimeProcess(ds);
      && (s.max.None? <==> forall i :: 0 <= i < |ds| ==> ds[i].max.None?)
      && (s.max.Some? ==> exists i :: 0 <= i < |ds| && ds[i].max == s.max)
      && (s.max.Some? ==> forall i :: 0 <= i < |ds| && ds[i].max.Some? ==> ds[i].max.value <= s.max.value)
  {
    var maxes := Maxes(ds);
    var mx := MaxPresent(maxes);
    assert TimeProcess(ds).max == mx;
    if mx.Some? {
      var i :| 0 <= i < |maxes| && maxes[i] == mx;
      assert ds[i].max == mx;
    }
  }

  /** The summary's MaxTime is the dailyMaxTime of the first day whose max
      is largest once missing maxes count as 0 (no all-missing mask). So it
      is the dailyMaxTime of a day attaining the summary's Max whenever that
      Max is positive or no daily max is missing, and the first day's when
      every daily max is missing. */
  lemma TimeProcessMaxTime(ds: seq<PeriodStat>)
    requires |ds| > 0
    ensures var s := TimeProcess(ds);
      && (exists k :: 0 <= k < |ds| && s.maxTime == ds[k].maxTime
            && (forall j :: 0 <= j < |ds| ==> Filled(ds[j].max) <= Filled(ds[k].max))
            && (forall j :: 0 <= j < k ==> Filled(ds[j].max) < Filled(ds[k].max)))
      && (s.max.Some? && (s.max.value > 0.0 || forall i :: 0 <= i < |ds| ==> ds[i].max.Some?) ==>
            exists k :: 0 <= k < |ds| && ds[k].max == s.max && s.maxTime == ds[k].maxTime)
      && (s.max.None? ==> s.maxTime == ds[0].maxTime)
  {
    var maxes := Maxes(ds);
    var k := FilledArgmax(maxes);
    FilledArgmaxFindsMax(maxes);
    var s := TimeProcess(ds);
    assert s.maxTime == ds[k].maxTime && s.max == MaxPresent(maxes);
    assert 0 <= k < |ds| && s.maxTime == ds[k].maxTime
      && (forall j :: 0 <= j < |ds| ==> Filled(ds[j].max) <= Filled(ds[k].max))
      && (forall j :: 0 <= j < k ==> Filled(ds[j].max) < Filled(ds[k].max)) by {
      forall j | 0 <= j < |ds| ensures Filled(ds[j].max) <= Filled(ds[k].max) {
        assert maxes[j] == ds[j].max;
      }
      forall j | 0 <= j < k ensures Filled(ds[j].max) < Filled(ds[k].max) {
        assert maxes[j] == ds[j].max;
      }
    }
  }

  /** The summary's `latest` is the time of one of the days and no day is
      later; with the days in time order it is the last day. */
  lemma TimeProcessLatest(ds: seq<PeriodStat>)
    requires |ds| > 0
    ensures var s := TimeProcess(ds);
      && (exists i :: 0 <= i < |ds| && ds[i].time == s.latest)
      && (forall i :: 0 <= i < |ds| ==> ds[i].time <= s.latest)
      && (Increasing(Times(ds)) ==> s.latest == ds[|ds| - 1].time)
  {
    var ts := Times(ds);
    var latest := Latest(ts);
    assert TimeProcess(ds).latest == latest;
    var i :| 0 <= i < |ts| && ts[i] == latest;
    assert ds[i].time == latest;
    assert ts[|ds| - 1] == ds[|ds| - 1].time;
  }

  /** Number of entries across the buffered datasets. */
  function TotalLength(buffer: seq<seq<PeriodStat>>): nat {
    if |buffer| == 0 then 0 else |buffer[0]| + TotalLength(buffer[1..])
  }

  /** `xarray.concat(dailyData, 'time')`: the buffered datasets one after
      another, so there are as many entries as the datasets hold together,
      and at least one per dataset when none is empty. */
  function Concat(buffer: seq<seq<PeriodStat>>): (r: seq<PeriodStat>)
    ensures |r| == TotalLength(buffer)
    ensures (forall i :: 0 <= i < |buffer| ==> |buffer[i]| > 0) ==> |r| >= |buffer|
  {
    if |buffer| == 0 then [] else buffer[0] + Concat(buffer[1..])
  }

  /** Every entry of a buffered dataset is in the concatenation, and every
      entry of the concatenation comes from a buffered dataset. */
  lemma {:induction false} ConcatContents(buffer: seq<seq<PeriodStat>>)
    ensures forall i, e :: 0 <= i < |buffer| && e in buffer[i] ==> e in Concat(buffer)
    ensures forall e :: e in Concat(buffer) ==> exists i :: 0 <= i < |buffer| && e in buffer[i]
  {
    if |buffer| > 0 {
      var rest := buffer[1..];
      ConcatContents(rest);
      assert Concat(buffer) == buffer[0] + Concat(rest);
      forall i, e | 0 <= i < |buffer| && e in buffer[i] ensures e in Concat(buffer) {
        if i > 0 {
          assert buffer[i] == rest[i - 1];
        }
      }
      forall e | e in Concat(buffer) ensures exists i :: 0 <= i < |buffer| && e in buffer[i] {
        if e !in buffer[0] {
          var i :| 0 <= i < |rest| && e in rest[i];
          assert buffer[i + 1] == rest[i];
        }
      }
    }
  }

  /** Buffering one more dataset appends its entries after the others'. */
  lemma {:induction false} ConcatAppend(buffer: seq<seq<PeriodStat>>, d: seq<PeriodStat>)
    ensures Concat(buffer + [d]) == Concat(buffer) + d
  {
    if |buffer| == 0 {
      assert buffer + [d] == [d];
      assert Concat([d]) == d + Concat([]);
    } else {
      assert (buffer + [d])[1..] == buffer[1..] + [d];
      ConcatAppend(buffer[1..], d);
    }
  }

  /** `end_period_process(dailyData, ...)` with period='1M': an empty buffer
      gives `[]` and writes nothing; otherwise the buffer is concatenated and
      summarised with `time_process`, and both are written. */
  function EndPeriodProcess(buffer: seq<seq<PeriodStat>>): (r: seq<PeriodFile>)
    requires forall i :: 0 <= i < |buffer| ==> |buffer[i]| > 0
    ensures |buffer| == 0 <==> r == []
    ensures |buffer| > 0 ==> |r| == 1 && r[0].days == |buffer| && |r[0].daily| >= |buffer|
    ensures |buffer| > 0 ==> r[0].daily == Concat(buffer)
  {
    if |buffer| == 0 then []
    else
      var daily := Concat(buffer);
      [PeriodFile(|buffer|, daily)]
  }

  /** The summary's Max against the entries themselves rather than their
      positions. */
  lemma TimeProcessMaxMembers(ds: seq<PeriodStat>)
    requires |ds| > 0
    ensures var m := TimeProcess(ds).max;
      && (m.None? <==> forall e :: e in ds ==> e.max.None?)
      && (m.Some? ==> exists e :: e in ds && e.max == m)
      && (forall e :: e in ds && e.max.Some? ==> m.Some? && e.max.value <= m.value)
  {
    TimeProcessMax(ds);
    var m := TimeProcess(ds).max;
    if m.Some? {
      var i :| 0 <= i < |ds| && ds[i].max == m;
      assert ds[i] in ds;
    }
  }

  /** The Max of a flushed period summary is missing exactly when every
      buffered day's Max is, and no buffered day's Max exceeds it. */
  lemma EndPeriodProcessMax(buffer: seq<seq<PeriodStat>>)
    requires forall i :: 0 <= i < |buffer| ==> |buffer[i]| > 0
    requires |buffer| > 0
    ensures var m := EndPeriodProcess(buffer)[0].Summarised().max;
      && (m.None? <==> forall i, e :: 0 <= i < |buffer| && e in buffer[i] ==> e.max.None?)
      && (forall i, e :: 0 <= i < |buffer| && e in buffer[i] && e.max.Some? ==> m.Some? && e.max.value <= m.value)
  {
    var daily := Concat(buffer);
    assert EndPeriodProcess(buffer)[0].Summarised().max == TimeProcess(daily).max;
    ConcatContents(buffer);
    TimeProcessMaxMembers(daily);
  }

  /** A present Max of a flushed period summary is the Max of one of the
      buffered days. */
  lemma EndPeriodProcessMaxFrom(buffer: seq<seq<PeriodStat>>)
    requires forall i :: 0 <= i < |buffer| ==> |buffer[i]| > 0
    requires |buffer| > 0
    ensures var m := EndPeriodProcess(buffer)[0].Summarised().max;
      m.Some? ==> exists i, e :: 0 <= i < |buffer| && e in buffer[i] && e.max == m
  {
    var daily := Concat(buffer);
    var m := TimeProcess(daily).max;
    assert EndPeriodProcess(buffer)[0].Summarised().max == m;
    if m.Some? {
      ConcatContents(buffer);
      TimeProcessMaxMembers(daily);
      var e :| e in daily && e.max == m;
      var i :| 0 <= i < |buffer| && e in buffer[i];
    }
  }
}

=== FILE: resample.dfy ===
/** The quality-control filter and the resampling of a cell's series into
    left-labelled periods (clock hours, days): grouping by period and the
    hourly mean `resample(time='1h').mean()`. */
module Resample {
  import opened Series
  import opened Calendar

  /** Readings above this rate (mm/hr) are taken to be radar artefacts. */
  const QcMax: real := 400.0

  /** `rain.where(rain <= 400)` on one reading. */
  function Qc(x: Option<real>): (r: Option<real>)
    ensures r.Some? <==> x.Some? && x.value <= QcMax
    ensures r.Some? ==> r == x
  {
    if x.Some? && x.value <= QcMax then x else None
  }

  /** The QC filter over a series: times kept, each reading passed through Qc. */
  function QcSeries(s: Series): (r: Series)
    requires |s.times| == |s.values|
    ensures r.times == s.times && |r.values| == |s.values|
    ensures forall i :: 0 <= i < |s.values| ==> r.values[i] == Qc(s.values[i])
  {
    Series(s.times, seq(|s.values|, i requires 0 <= i < |s.values| => Qc(s.values[i])))
  }

  /** QC keeps a reading exactly when it is present and at most 400 (so 400
      itself is kept); after QC nothing exceeds 400, and a second pass
      changes nothing. */
  lemma QcProperties(s: Series)
    requires |s.times| == |s.values|
    ensures forall i :: 0 <= i < |s.values| ==>
      (QcSeries(s).values[i].Some? <==> s.values[i].Some? && s.values[i].value <= 400.0)
    ensures forall i :: 0 <= i < |s.values| && QcSeries(s).values[i].Some? ==>
      QcSeries(s).values[i] == s.values[i]
    ensures AtMost(QcSeries(s).values, QcMax)
    ensures QcSeries(QcSeries(s)) == QcSeries(s)
  {
    var r := QcSeries(s);
    assert QcSeries(r).values == r.values;
  }

  /** Period keys along an increasing series never decrease. */
  lemma KeysMonotone(ts: seq<int>, width: int)
    requires width > 0 && Increasing(ts)
    ensures forall i, j :: 0 <= i <= j < |ts| ==> ts[i] / width <= ts[j] / width
  {
    forall i, j | 0 <= i <= j < |ts| ensures ts[i] / width <= ts[j] / width {
      DivMonotone(ts[i], ts[j], width);
    }
  }

  /** Number of leading samples whose period key is at most `key`; since keys
      never decrease, the rest all have larger keys. */
  function CountUpTo(ts: seq<int>, width: int, key: int): (k: nat)
    requires width > 0 && Increasing(ts)
    ensures k <= |ts|
    ensures forall i :: 0 <= i < k ==> ts[i] / width <= key
    ensures forall i :: k <= i < |ts| ==> ts[i] / width > key
  {
    KeysMonotone(ts, width);
    if |ts| == 0 || ts[0] / width > key then 0
    else
      var k := CountUpTo(ts[1..], width, key);
      assert forall i :: 1 <= i < |ts| ==> ts[i] == ts[1..][i - 1];
      1 + k
  }

  /** A later period key has at least as many samples up to it. */
  lemma CountUpToMonotone(ts: seq<int>, width: int, k1: int, k2: int)
    requires width > 0 && Increasing(ts) && k1 <= k2
    ensures CountUpTo(ts, width, k1) <= CountUpTo(ts, width, k2)
  {
  }

  /** The samples of period `key` (times in [key * width, key * width + width)):
      one resampling group. */
  function Period(s: Series, width: int, key: int): (g: Series)
    requires WellFormed(s) && width > 0
    ensures WellFormed(g)
    ensures forall j :: 0 <= j < |g.times| ==> g.times[j] / width == key
  {
    var lo := CountUpTo(s.times, width, key - 1);
    var hi := CountUpTo(s.times, width, key);
    assert hi < |s.times| ==> s.times[hi] / width > key;
    Series(s.times[lo..hi], s.values[lo..hi])
  }

  /** A period is the contiguous run of samples lo..hi, and sample i belongs
      to it exactly when its key is the period's. */
  lemma PeriodSlice(s: Series, width: int, key: int)
    requires WellFormed(s) && width > 0
    ensures var lo, hi := CountUpTo(s.times, width, key - 1), CountUpTo(s.times, width, key);
      && lo <= hi
      && Period(s, width, key) == Series(s.times[lo..hi], s.values[lo..hi])
      && forall i :: 0 <= i < |s.times| ==> (s.times[i] / width == key <==> lo <= i < hi)
  {
    var lo, hi := CountUpTo(s.times, width, key - 1), CountUpTo(s.times, width, key);
    assert hi < |s.times| ==> s.times[hi] / width > key;
  }

  /** A period has no present reading exactly when no sample with its key
      is present. */
  lemma PeriodAllMissing(s: Series, width: int, key: int)
    requires WellFormed(s) && width > 0
    ensures AllMissing(Period(s, width, key).values) <==>
      forall i :: 0 <= i < |s.times| && s.times[i] / width == key ==> s.values[i].None?
  {
    var g := Period(s, width, key);
    PeriodSlice(s, width, key);
    var lo := CountUpTo(s.times, width, key - 1);
    if AllMissing(g.values) {
      forall i | 0 <= i < |s.times| && s.times[i] / width == key ensures s.values[i].None? {
        assert g.values[i - lo] == s.values[i];
      }
    } else {
      var j :| 0 <= j < |g.values| && g.values[j].Some?;
      assert s.times[lo + j] / width == key && s.values[lo + j].Some?;
    }
  }

  /** `resample(time='1h').mean()`: one value per clock hour from the hour of
      the first sample to the hour of the last, labelled with the hour's
      start, each the NaN-skipping mean of that hour's samples (missing when
      the hour has no present sample). */
  function Hourly(s: Series): (h: Series)
    requires WellFormed(s) && |s.times| > 0
    ensures WellFormed(h) && |h.times| > 0
  {
    var first := s.times[0] / MinutesPerHour;
    var last := s.times[|s.times| - 1] / MinutesPerHour;
    DivMonotone(s.times[0], s.times[|s.times| - 1], MinutesPerHour);
    var n := last - first + 1;
    var times := seq(n, p requires 0 <= p < n => (first + p) * MinutesPerHour);
    Series(times, seq(n, p requires 0 <= p < n => MeanPresent(Period(s, MinutesPerHour, first + p).values)))
  }

  /** The hourly labels: the first is the start of the first sample's hour,
      every label is on the hour, consecutive labels are an hour apart, and
      every sample falls in one of the labelled hours. */
  lemma HourlyLabels(s: Series)
    requires WellFormed(s) && |s.times| > 0
    ensures var h := Hourly(s);
      && h.times[0] == (s.times[0] / MinutesPerHour) * MinutesPerHour
      && (forall p :: 0 <= p < |h.times| ==> MinuteOfHour(h.times[p]) == 0)
      && (forall p :: 0 <= p < |h.times| - 1 ==> h.times[p + 1] == h.times[p] + MinutesPerHour)
      && (forall i :: 0 <= i < |s.times| ==>
            0 <= s.times[i] / MinutesPerHour - h.times[0] / MinutesPerHour < |h.times|)
  {
    var h := Hourly(s);
    var first := s.times[0] / MinutesPerHour;
    assert forall p :: 0 <= p < |h.times| ==> h.times[p] == (first + p) * MinutesPerHour;
    assert h.times[0] / MinutesPerHour == first;
    KeysMonotone(s.times, MinutesPerHour);
  }

  /** The value at hour p is the NaN-skipping mean of the samples in that
      hour's period. */
  lemma HourlyMean(s: Series, p: nat)
    requires WellFormed(s) && |s.times| > 0 && p < |Hourly(s).times|
    ensures Hourly(s).values[p] == MeanPresent(Period(s, MinutesPerHour, Hourly(s).times[p] / MinutesPerHour).values)
  {
    var first := s.times[0] / MinutesPerHour;
    assert Hourly(s).times[p] == (first + p) * MinutesPerHour;
  }

  /** Hour p of the hourly series is missing exactly when none of the
      samples in that clock hour is present. */
  lemma HourlyMissing(s: Series, p: nat)
    requires WellFormed(s) && |s.times| > 0 && p < |Hourly(s).times|
    ensures Hourly(s).values[p].None? <==>
      forall i :: 0 <= i < |s.times| && s.times[i] / MinutesPerHour == Hourly(s).times[p] / MinutesPerHour
        ==> s.values[i].None?
  {
    HourlyMean(s, p);
    PeriodAllMissing(s, MinutesPerHour, Hourly(s).times[p] / MinutesPerHour);
  }

  /** The NaN-skipping max of a period is the reading of one of the
      period's own samples, no smaller than any present sample with the
      period's key. */
  lemma PeriodMaxPresent(s: Series, width: int, key: int)
    requires WellFormed(s) && width > 0
    ensures var mx := MaxPresent(Period(s, width, key).values);
      && (mx.Some? ==> exists i :: 0 <= i < |s.times| && s.times[i] / width == key && s.values[i] == mx)
      && (forall i :: 0 <= i < |s.times| && s.times[i] / width == key && s.values[i].Some? ==>
            mx.Some? && s.values[i].value <= mx.value)
  {
    var g := Period(s, width, key);
    var mx := MaxPresent(g.values);
    PeriodSlice(s, width, key);
    var lo := CountUpTo(s.times, width, key - 1);
    forall i | 0 <= i < |s.times| && s.times[i] / width == key && s.values[i].Some?
      ensures mx.Some? && s.values[i].value <= mx.value
    {
      assert g.values[i - lo] == s.values[i];
    }
    if mx.Some? {
      var j :| 0 <= j < |g.values| && g.values[j] == mx;
      assert s.values[lo + j] == mx && s.times[lo + j] / width == key;
    }
  }

  /** Every time of a period is the time of a sample with the period's key. */
  lemma PeriodTimes(s: Series, width: int, key: int)
    requires WellFormed(s) && width > 0
    ensures forall t :: t in Period(s, width, key).times ==>
      exists i :: 0 <= i < |s.times| && s.times[i] / width == key && s.times[i] == t
  {
    var g := Period(s, width, key);
    PeriodSlice(s, width, key);
    var lo := CountUpTo(s.times, width, key - 1);
    forall t | t in g.times
      ensures exists i :: 0 <= i < |s.times| && s.times[i] / width == key && s.times[i] == t
    {
      var j :| 0 <= j < |g.times| && g.times[j] == t;
      assert s.times[lo + j] == t && s.times[lo + j] / width == key;
    }
  }

  /** A bound that every sample respects holds in every period. */
  lemma PeriodAtMost(s: Series, width: int, key: int, c: real)
    requires WellFormed(s) && width > 0 && AtMost(s.values, c)
    ensures AtMost(Period(s, width, key).values, c)
  {
    PeriodSlice(s, width, key);
  }

  /** A bound that every sample respects (such as the QC limit) bounds
      every hourly mean. */
  lemma HourlyAtMost(s: Series, c: real)
    requires WellFormed(s) && |s.times| > 0 && AtMost(s.values, c)
    ensures AtMost(Hourly(s).values, c)
  {
    var h := Hourly(s);
    forall p | 0 <= p < |h.times| && h.values[p].Some?
      ensures h.values[p].value <= c
    {
      var key := h.times[p] / MinutesPerHour;
      PeriodAtMost(s, MinutesPerHour, key, c);
      HourlyMean(s, p);
      MeanPresentAtMost(Period(s, MinutesPerHour, key).values, c);
    }
  }

  /** One day file's rain as both scripts compute it: the QC filter on the
      raw readings, then the hourly mean. */
  function DayRain(raw: Series): (rain: Series)
    requires WellFormed(raw) && |raw.times| > 0
    ensures WellFormed(rain) && |rain.times| > 0
  {
    Hourly(QcSeries(raw))
  }

  /** No hourly value of a day's rain exceeds the QC limit, so a raw artefact
      (near 1024 mm/hr, say) can reach no later statistic. */
  lemma DayRainWithinQc(raw: Series)
    requires WellFormed(raw) && |raw.times| > 0
    ensures AtMost(DayRain(raw).values, QcMax)
  {
    QcProperties(raw);
    HourlyAtMost(QcSeries(raw), QcMax);
  }
}

=== FILE: rolling.dfy ===
/** The two-hour rolling mean of process_radar_data.py (`two_hr_mean`) and the
    way the main loop seeds it with the previous day's last hour when the two
    days meet. */
module Rolling {
  import opened Series
  import opened Calendar

  /** One timed reading: what the main loop keeps of the previous day's last hour. */
  datatype Sample = Sample(time: int, value: Option<real>)

  /** Mean of a full two-sample window, missing unless both samples are present. */
  function PairMean(a: Option<real>, b: Option<real>): (r: Option<real>)
    ensures r.Some? <==> a.Some? && b.Some?
    ensures r.Some? ==> r.value == (a.value + b.value) / 2.0
  {
    if a.Some? && b.Some? then Some((a.value + b.value) / 2.0) else None
  }

  /** `two_hr_mean`: `rolling(time=2, min_periods=2).mean()`, the trailing
      window over positions, extended one window at a time. Output i is the
      mean of inputs i-1 and i when both are present, missing otherwise, and
      always missing at position 0. */
  function TwoHrMean(xs: seq<Option<real>>): (r: seq<Option<real>>)
    ensures |r| == |xs|
    ensures |xs| > 0 ==> r[0].None?
    ensures forall i :: 1 <= i < |xs| ==> r[i] == PairMean(xs[i - 1], xs[i])
  {
    if |xs| <= 1 then seq(|xs|, i => None)
    else
      var front := xs[..|xs| - 1];
      var r := TwoHrMean(front) + [PairMean(xs[|xs| - 2], xs[|xs| - 1])];
      assert forall i :: 0 <= i < |front| ==> front[i] == xs[i] && r[i] == TwoHrMean(front)[i];
      r
  }

  /** The rolling mean stays within any bound that its inputs respect. */
  lemma TwoHrMeanAtMost(xs: seq<Option<real>>, c: real)
    requires AtMost(xs, c)
    ensures AtMost(TwoHrMean(xs), c)
  {
    var r := TwoHrMean(xs);
    forall i | 0 <= i < |r| && r[i].Some? ensures r[i].value <= c {
      assert i >= 1 && xs[i - 1].Some? && xs[i].Some?;
    }
  }

  /** Prepending a sample changes only the first window: output i + 1 of the
      longer series is output i of the shorter one from position 1 on, and
      output 1 is the first pair's mean. */
  lemma TwoHrMeanCons(x: Option<real>, ys: seq<Option<real>>)
    requires |ys| > 0
    ensures TwoHrMean([x] + ys)[1] == PairMean(x, ys[0])
    ensures forall i :: 1 <= i < |ys| ==> TwoHrMean([x] + ys)[i + 1] == TwoHrMean(ys)[i]
  {
    var xs := [x] + ys;
    var r, q := TwoHrMean(xs), TwoHrMean(ys);
    assert xs[0] == x && xs[1] == ys[0];
    forall i | 1 <= i < |ys| ensures r[i + 1] == q[i] {
      assert xs[i] == ys[i - 1] && xs[i + 1] == ys[i];
    }
  }

  /** Number of leading times before t. */
  function Below(ts: seq<int>, t: int): (k: nat)
    requires Increasing(ts)
    ensures k <= |ts|
    ensures forall i :: 0 <= i < k ==> ts[i] < t
    ensures forall i :: k <= i < |ts| ==> ts[i] >= t
  {
    if |ts| == 0 || ts[0] >= t then 0
    else
      var k := Below(ts[1..], t);
      assert forall i :: 1 <= i < |ts| ==> ts[i] == ts[1..][i - 1];
      1 + k
  }

  /** `last.combine_first(rain)` for a one-sample `last`: the two time axes
      merged in order; at a shared time the sample of `last` wins unless it
      is missing. */
  function CombineFirst(last: Sample, s: Series): (r: Series)
    requires WellFormed(s)
    ensures WellFormed(r)
    ensures |r.times| == |s.times| + (if last.time in s.times then 0 else 1)
  {
    var k := Below(s.times, last.time);
    if k < |s.times| && s.times[k] == last.time then
      Series(s.times, s.values[k := if last.value.Some? then last.value else s.values[k]])
    else
      var ts := s.times[..k] + [last.time] + s.times[k..];
      assert forall i :: 0 <= i < |ts| ==> ts[i] == if i < k then s.times[i] else if i == k then last.time else s.times[i - 1];
      assert last.time !in s.times;
      Series(ts, s.values[..k] + [last.value] + s.values[k..])
  }

  /** The merged axis holds exactly the times of both inputs. */
  lemma CombineFirstTimes(last: Sample, s: Series)
    requires WellFormed(s)
    ensures forall x :: x in CombineFirst(last, s).times <==> x == last.time || x in s.times
  {
    var r := CombineFirst(last, s);
    var k := Below(s.times, last.time);
    if !(k < |s.times| && s.times[k] == last.time) {
      assert r.times == s.times[..k] + [last.time] + s.times[k..];
      forall x ensures x in r.times <==> x == last.time || x in s.times {
        if x in s.times {
          var i :| 0 <= i < |s.times| && s.times[i] == x;
          assert r.times[if i < k then i else i + 1] == x;
        }
      }
    }
  }

  /** The merge at any time other than that of `last`: the value `s` has at
      that time. */
  lemma CombineFirstValues(last: Sample, s: Series)
    requires WellFormed(s)
    ensures var r := CombineFirst(last, s);
      forall j :: 0 <= j < |r.times| && r.times[j] != last.time ==>
        exists i :: 0 <= i < |s.times| && s.times[i] == r.times[j] && s.values[i] == r.values[j]
  {
    var r := CombineFirst(last, s);
    var k := Below(s.times, last.time);
    if k < |s.times| && s.times[k] == last.time {
      forall j | 0 <= j < |r.times| && r.times[j] != last.time
        ensures exists i :: 0 <= i < |s.times| && s.times[i] == r.times[j] && s.values[i] == r.values[j]
      {
        assert j != k;
        assert s.times[j] == r.times[j] && s.values[j] == r.values[j];
      }
    } else {
      assert r.times == s.times[..k] + [last.time] + s.times[k..];
      assert r.values == s.values[..k] + [last.value] + s.values[k..];
      forall j | 0 <= j < |r.times| && r.times[j] != last.time
        ensures exists i :: 0 <= i < |s.times| && s.times[i] == r.times[j] && s.values[i] == r.values[j]
      {
        assert j != k;
        var i := if j < k then j else j - 1;
        assert s.times[i] == r.times[j] && s.values[i] == r.values[j];
      }
    }
  }

  /** The merge at the time of `last`: last's value when present; otherwise
      the value `s` has at that time, or missing when `s` has no sample
      then. */
  lemma CombineFirstAtLast(last: Sample, s: Series)
    requires WellFormed(s)
    ensures var r := CombineFirst(last, s);
      && (forall j :: 0 <= j < |r.times| && r.times[j] == last.time && last.value.Some? ==>
            r.values[j] == last.value)
      && (forall j, i ::
            0 <= j < |r.times| && r.times[j] == last.time && last.value.None? && 0 <= i < |s.times| && s.times[i] == last.time
            ==> r.values[j] == s.values[i])
      && (forall j :: 0 <= j < |r.times| && r.times[j] == last.time && last.time !in s.times ==>
            r.values[j] == last.value)
  {
    var r := CombineFirst(last, s);
    var k := Below(s.times, last.time);
    if k < |s.times| && s.times[k] == last.time {
      assert r.times == s.times;
      forall j | 0 <= j < |r.times| && r.times[j] == last.time ensures j == k {
      }
    } else {
      assert r.times == s.times[..k] + [last.time] + s.times[k..];
      assert r.values == s.values[..k] + [last.value] + s.values[k..];
      assert last.time !in s.times;
      forall j | 0 <= j < |r.times| && j != k ensures r.times[j] != last.time {
        var i := if j < k then j else j - 1;
        assert r.times[j] == s.times[i];
      }
    }
  }

  /** With the previous day's last hour before the day's first, the merge
      simply puts that hour in front. */
  lemma CombineFirstBefore(last: Sample, s: Series)
    requires WellFormed(s) && |s.times| > 0 && last.time < s.times[0]
    ensures CombineFirst(last, s) == Series([last.time] + s.times, [last.value] + s.values)
  {
    assert Below(s.times, last.time) == 0;
    assert s.times[..0] == [] && s.values[..0] == [];
    assert s.times[0..] == s.times && s.values[0..] == s.values;
  }

  /** The main loop's seam test `(time - last.time).seconds == 3600`: the
      seconds part of the difference ignores whole days, so the test is that
      the difference is one hour modulo a day. */
  predicate SeamOk(lastTime: int, time: int): (ok: bool)
    ensures time - lastTime == MinutesPerHour ==> ok
    ensures time - lastTime == MinutesPerDay + MinutesPerHour ==> ok
    ensures time - lastTime == 2 * MinutesPerHour ==> !ok
  {
    (time - lastTime) % MinutesPerDay == MinutesPerHour
  }

  /** The seam test accepts exactly the differences of one hour plus a whole
      number of days, so a gap of one day and one hour passes as well as a
      gap of one hour, while a gap of two hours does not. */
  lemma SeamOkDays(lastTime: int, time: int)
    ensures SeamOk(lastTime, time) <==> exists n: int :: time - lastTime == n * MinutesPerDay + MinutesPerHour
    ensures SeamOk(lastTime, lastTime + MinutesPerHour)
    ensures SeamOk(lastTime, lastTime + MinutesPerDay + MinutesPerHour)
    ensures !SeamOk(lastTime, lastTime + 2 * MinutesPerHour)
  {
    var d := time - lastTime;
    if SeamOk(lastTime, time) {
      assert d == (d / MinutesPerDay) * MinutesPerDay + MinutesPerHour;
    }
    forall n: int | d == n * MinutesPerDay + MinutesPerHour ensures SeamOk(lastTime, time) {
      assert d % MinutesPerDay == MinutesPerHour;
    }
  }

  /** The 2-hour series the main loop hands to `process`: when there is a
      previous hour and the seam test passes, that hour is merged in front
      (`combine_first`), the rolling mean taken and its first output dropped;
      otherwise the rolling mean of the day alone. */
  function TwoHrSeries(last: Option<Sample>, rain: Series): (r: Series)
    requires WellFormed(rain) && |rain.times| > 0
    ensures WellFormed(r) && |r.times| > 0
  {
    if last.Some? && SeamOk(last.value.time, rain.times[0]) then
      var c := CombineFirst(last.value, rain);
      assert last.value.time != rain.times[0];
      assert |c.times| >= 2;
      Series(c.times[1..], TwoHrMean(c.values)[1..])
    else
      Series(rain.times, TwoHrMean(rain.values))
  }

  /** Across a seam, with the previous hour before the day: the output keeps
      the day's times, its first value is the mean of the previous hour and
      the day's first hour, and every later value is the day's own rolling
      mean. */
  lemma TwoHrSeam(last: Sample, rain: Series)
    requires WellFormed(rain) && |rain.times| > 0
    requires last.time < rain.times[0] && SeamOk(last.time, rain.times[0])
    ensures var r := TwoHrSeries(Some(last), rain);
      && r.times == rain.times
      && r.values[0] == PairMean(last.value, rain.values[0])
      && forall i :: 1 <= i < |rain.values| ==> r.values[i] == TwoHrMean(rain.values)[i]
  {
    CombineFirstBefore(last, rain);
    TwoHrMeanCons(last.value, rain.values);
    assert ([last.time] + rain.times)[1..] == rain.times;
  }

  /** Without a previous hour or a passing seam test, the first 2-hour value
      of the day is missing and the rest is the day's own rolling mean. */
  lemma TwoHrNoSeam(last: Option<Sample>, rain: Series)
    requires WellFormed(rain) && |rain.times| > 0
    requires !(last.Some? && SeamOk(last.value.time, rain.times[0]))
    ensures var r := TwoHrSeries(last, rain);
      && r.times == rain.times
      && r.values[0].None?
      && r.values == TwoHrMean(rain.values)
  {
    var q := TwoHrMean(rain.values);
    assert q[0].None?;
  }

  /** A bound respected by the readings of `s` and by the sample of `last`
      is respected by every reading of the merge. */
  lemma CombineFirstAtMost(last: Sample, s: Series, c: real)
    requires WellFormed(s) && AtMost(s.values, c)
    requires last.value.Some? ==> last.value.value <= c
    ensures AtMost(CombineFirst(last, s).values, c)
  {
    var r := CombineFirst(last, s);
    CombineFirstValues(last, s);
    CombineFirstAtLast(last, s);
    forall j | 0 <= j < |r.values| && r.values[j].Some? ensures r.values[j].value <= c {
      if r.times[j] != last.time {
        var i :| 0 <= i < |s.times| && s.times[i] == r.times[j] && s.values[i] == r.values[j];
      } else if last.value.None? && last.time in s.times {
        var i :| 0 <= i < |s.times| && s.times[i] == last.time;
      }
    }
  }

  /** A bound respected by the day's readings and by the previous hour is
      respected by every 2-hour value. */
  lemma TwoHrSeriesAtMost(last: Option<Sample>, rain: Series, c: real)
    requires WellFormed(rain) && |rain.times| > 0 && AtMost(rain.values, c)
    requires last.Some? && last.value.value.Some? ==> last.value.value.value <= c
    ensures AtMost(TwoHrSeries(last, rain).values, c)
  {
    if last.Some? && SeamOk(last.value.time, rain.times[0]) {
      CombineFirstAtMost(last.value, rain, c);
      TwoHrMeanAtMost(CombineFirst(last.value, rain).values, c);
    } else {
      TwoHrMeanAtMost(rain.values, c);
    }
  }
}

=== FILE: series.dfy ===
/** One grid cell's values over time, with missing readings (NaN in the
    original arrays) written as None, and the reductions over them that the
    pipeline uses: NaN-skipping sum, count, mean and max, and numpy's argmax. */
module Series {

  datatype Option<+T> = None | Some(value: T)

  /** A cell's series: sample times (minutes) and the reading at each time. */
  datatype Series = Series(times: seq<int>, values: seq<Option<real>>)

  predicate Increasing(ts: seq<int>) {
    forall i, j :: 0 <= i < j < |ts| ==> ts[i] < ts[j]
  }

  predicate WellFormed(s: Series) {
    |s.times| == |s.values| && Increasing(s.times)
  }

  predicate AllMissing(xs: seq<Option<real>>) {
    forall i :: 0 <= i < |xs| ==> xs[i].None?
  }

  predicate AnyMissing(xs: seq<Option<real>>) {
    exists i :: 0 <= i < |xs| && xs[i].None?
  }

  /** Every present reading is at most c. */
  predicate AtMost(xs: seq<Option<real>>, c: real) {
    forall i :: 0 <= i < |xs| && xs[i].Some? ==> xs[i].value <= c
  }

  /** A missing reading counted as 0 (`fillna(0.0)`). */
  function Filled(x: Option<real>): real {
    if x.Some? then x.value else 0.0
  }

  /** NaN-skipping sum: missing readings contribute nothing, so an all-missing
      or empty series sums to 0. */
  function SumPresent(xs: seq<Option<real>>): real {
    if |xs| == 0 then 0.0 else Filled(xs[0]) + SumPresent(xs[1..])
  }

  /** Number of present readings (as a real, the divisor of the mean). */
  function CountPresent(xs: seq<Option<real>>): real {
    if |xs| == 0 then 0.0 else (if xs[0].Some? then 1.0 else 0.0) + CountPresent(xs[1..])
  }

  /** The count lies between 0 and the length; it is 0 exactly when every
      reading is missing and the full length exactly when none is. */
  lemma {:induction false} CountPresentRange(xs: seq<Option<real>>)
    ensures 0.0 <= CountPresent(xs) <= |xs| as real
    ensures CountPresent(xs) == 0.0 <==> AllMissing(xs)
    ensures CountPresent(xs) == |xs| as real <==> !AnyMissing(xs)
  {
    if |xs| > 0 {
      CountPresentRange(xs[1..]);
      assert forall i :: 1 <= i < |xs| ==> xs[i] == xs[1..][i - 1];
    }
  }

  /** The mean of `n` values summing to `total`. */
  function PlainMean(total: real, n: nat): (m: real)
    requires n > 0
    ensures m * (n as real) == total
  {
    total / (n as real)
  }

  /** NaN-skipping mean (xarray's default): the mean of the present readings,
      missing when none is present. */
  function MeanPresent(xs: seq<Option<real>>): (r: Option<real>)
    ensures r.None? <==> AllMissing(xs)
    ensures r.Some? ==> r.value * CountPresent(xs) == SumPresent(xs)
  {
    CountPresentRange(xs);
    var c := CountPresent(xs);
    if c == 0.0 then None else Some(SumPresent(xs) / c)
  }

  /** NaN-skipping max (xarray's default): the largest present reading,
      missing when none is present. */
  function MaxPresent(xs: seq<Option<real>>): (r: Option<real>)
    ensures r.None? <==> AllMissing(xs)
    ensures r.Some? ==> r in xs
    ensures r.Some? ==> AtMost(xs, r.value)
  {
    if |xs| == 0 then None
    else
      var rest := MaxPresent(xs[1..]);
      assert forall i :: 1 <= i < |xs| ==> xs[i] == xs[1..][i - 1];
      match xs[0]
      case None => rest
      case Some(v) => if rest.Some? && rest.value > v then rest else Some(v)
  }

  /** numpy's argmax scan from position i, `best` being the maximum so far;
      a NaN compares as "not <= the maximum", is taken, and ends the scan. */
  function ArgmaxScan(xs: seq<Option<real>>, i: nat, best: nat): (k: nat)
    requires best < i <= |xs|
    requires forall j :: 0 <= j < i ==> xs[j].Some?
    requires forall j :: 0 <= j < i ==> xs[j].value <= xs[best].value
    requires forall j :: 0 <= j < best ==> xs[j].value < xs[best].value
    ensures k < |xs|
    ensures AnyMissing(xs) ==> xs[k].None? && forall j :: 0 <= j < k ==> xs[j].Some?
    ensures !AnyMissing(xs) ==> forall j :: 0 <= j < |xs| ==> xs[j].value <= xs[k].value
    ensures !AnyMissing(xs) ==> forall j :: 0 <= j < k ==> xs[j].value < xs[k].value
    decreases |xs| - i
  {
    if i == |xs| then best
    else match xs[i]
      case None => i
      case Some(v) => if v <= xs[best].value then ArgmaxScan(xs, i + 1, best) else ArgmaxScan(xs, i + 1, i)
  }

  /** numpy `argmax` (what xarray's `argmax(skipna=False)` calls): the index of
      the first missing reading if there is one, otherwise of the first
      occurrence of the maximum. It always yields an index, even when every
      reading is missing. */
  function ArgmaxNaN(xs: seq<Option<real>>): (k: nat)
    requires |xs| > 0
    ensures k < |xs|
    ensures AnyMissing(xs) ==> xs[k].None? && forall j :: 0 <= j < k ==> xs[j].Some?
    ensures !AnyMissing(xs) ==> forall j :: 0 <= j < |xs| ==> xs[j].value <= xs[k].value
    ensures !AnyMissing(xs) ==> forall j :: 0 <= j < k ==> xs[j].value < xs[k].value
  {
    if xs[0].None? then 0 else ArgmaxScan(xs, 1, 0)
  }

  /** `fillna(0.0)` over a whole series. */
  function FillZero(xs: seq<Option<real>>): (r: seq<Option<real>>)
    ensures |r| == |xs| && !AnyMissing(r)
    ensures forall i :: 0 <= i < |xs| ==> r[i] == Some(Filled(xs[i]))
  {
    seq(|xs|, i requires 0 <= i < |xs| => Some(Filled(xs[i])))
  }

  /** `fillna(0.0).argmax(...)`: first index of the largest value once missing
      readings count as 0. */
  function FilledArgmax(xs: seq<Option<real>>): (k: nat)
    requires |xs| > 0
    ensures k < |xs|
    ensures forall j :: 0 <= j < |xs| ==> Filled(xs[j]) <= Filled(xs[k])
    ensures forall j :: 0 <= j < k ==> Filled(xs[j]) < Filled(xs[k])
  {
    var f := FillZero(xs);
    var k := ArgmaxNaN(f);
    assert forall j :: 0 <= j < |xs| ==> f[j].value == Filled(xs[j]);
    k
  }

  /** Latest time of a non-empty list of times (`time.max()`). */
  function Latest(ts: seq<int>): (m: int)
    requires |ts| > 0
    ensures m in ts
    ensures forall i :: 0 <= i < |ts| ==> ts[i] <= m
  {
    if |ts| == 1 then ts[0]
    else
      var rest := Latest(ts[1..]);
      assert forall i :: 1 <= i < |ts| ==> ts[i] == ts[1..][i - 1];
      if ts[0] > rest then ts[0] else rest
  }

  /** Earliest time of a non-empty list of times (`time.min()`). */
  function Earliest(ts: seq<int>): (m: int)
    requires |ts| > 0
    ensures m in ts
    ensures forall i :: 0 <= i < |ts| ==> m <= ts[i]
  {
    if |ts| == 1 then ts[0]
    else
      var rest := Earliest(ts[1..]);
      assert forall i :: 1 <= i < |ts| ==> ts[i] == ts[1..][i - 1];
      if ts[0] < rest then ts[0] else rest
  }

  // ---------------------------------------------------------------------
  // Lemmas about the reductions

  /** The NaN-skipping sum distributes over concatenation. */
  lemma {:induction false} SumPresentAppend(a: seq<Option<real>>, b: seq<Option<real>>)
    ensures SumPresent(a + b) == SumPresent(a) + SumPresent(b)
  {
    if |a| > 0 {
      assert (a + b)[1..] == a[1..] + b;
      SumPresentAppend(a[1..], b);
    } else {
      assert a + b == b;
    }
  }

  /** c counted once per present reading (c times the count, written as a sum). */
  function CountScaled(xs: seq<Option<real>>, c: real): real {
    if |xs| == 0 then 0.0 else (if xs[0].Some? then c else 0.0) + CountScaled(xs[1..], c)
  }

  /** With every present reading at most c, the sum is at most c per present reading. */
  lemma {:induction false} SumPresentAtMost(xs: seq<Option<real>>, c: real)
    requires AtMost(xs, c)
    ensures SumPresent(xs) <= CountScaled(xs, c)
  {
    if |xs| > 0 {
      var rest := xs[1..];
      assert AtMost(rest, c) by {
        forall i | 0 <= i < |rest| && rest[i].Some? ensures rest[i].value <= c {
          assert rest[i] == xs[i + 1];
        }
      }
      SumPresentAtMost(rest, c);
    }
  }

  /** Counting c once per present reading gives c times the count. */
  lemma {:induction false} CountScaledIsProduct(xs: seq<Option<real>>, c: real)
    ensures CountScaled(xs, c) == c * CountPresent(xs)
  {
    if |xs| > 0 {
      var n, rest := CountPresent(xs[1..]), CountScaled(xs[1..], c);
      CountScaledIsProduct(xs[1..], c);
      if xs[0].Some? {
        ProductStep(c, n, CountPresent(xs), rest);
      }
    }
  }

  /** One more counted reading adds c to c times the count. */
  lemma ProductStep(c: real, n: real, m: real, r: real)
    requires m == 1.0 + n && r == c * n
    ensures c + r == c * m
  {
  }

  /** A NaN-skipping mean never exceeds a bound that every present reading respects. */
  lemma MeanPresentAtMost(xs: seq<Option<real>>, c: real)
    requires AtMost(xs, c)
    ensures MeanPresent(xs).Some? ==> MeanPresent(xs).value <= c
  {
    var r := MeanPresent(xs);
    if r.Some? {
      var s, n := SumPresent(xs), CountPresent(xs);
      CountPresentRange(xs);
      SumPresentAtMost(xs, c);
      CountScaledIsProduct(xs, c);
      assert !AllMissing(xs);
      assert n > 0.0;
      assert r.value * n == s;
      assert s <= c * n;
      ScaleBound(r.value, c, n, s);
    }
  }

  /** Dividing out a positive factor keeps an upper bound. */
  lemma ScaleBound(v: real, c: real, n: real, s: real)
    requires n > 0.0 && v * n == s && s <= c * n
    ensures v <= c
  {
    assert (c - v) * n == c * n - s;
  }

  /** With no missing reading, the NaN-skipping mean is the plain mean. */
  lemma MeanPresentComplete(xs: seq<Option<real>>)
    requires |xs| > 0 && !AnyMissing(xs)
    ensures MeanPresent(xs) == Some(SumPresent(xs) / |xs| as real)
  {
    CountPresentRange(xs);
  }

  /** With nothing missing, numpy's argmax points at the maximum. */
  lemma ArgmaxFindsMax(xs: seq<Option<real>>)
    requires |xs| > 0
    ensures !AnyMissing(xs) ==> xs[ArgmaxNaN(xs)] == MaxPresent(xs)
  {
    if !AnyMissing(xs) {
      var m := MaxPresent(xs);
      var i :| 0 <= i < |xs| && xs[i] == m;
    }
  }

  /** Once missing readings count as 0, the chosen index holds the true
      maximum whenever that maximum is positive or nothing is missing; when
      every reading is missing it is index 0. */
  lemma FilledArgmaxFindsMax(xs: seq<Option<real>>)
    requires |xs| > 0
    ensures AllMissing(xs) ==> FilledArgmax(xs) == 0
    ensures MaxPresent(xs).Some? && (MaxPresent(xs).value > 0.0 || !AnyMissing(xs))
            ==> xs[FilledArgmax(xs)] == MaxPresent(xs)
  {
    var k := FilledArgmax(xs);
    var m := MaxPresent(xs);
    assert AllMissing(xs) ==> Filled(xs[0]) == 0.0 && Filled(xs[k]) == 0.0;
    if m.Some? && (m.value > 0.0 || !AnyMissing(xs)) {
      var i :| 0 <= i < |xs| && xs[i] == m;
      assert m.value == Filled(xs[i]) <= Filled(xs[k]);
      assert xs[k].Some? by {
        if m.value <= 0.0 {
          assert !AnyMissing(xs);
        }
      }
      assert xs[k].value <= m.value;
    }
  }
}
